=== FILE: README.md ===
# timesnap, modelled in Dafny

timesnap records a web page frame by frame at a fixed frame rate. It loads the
page in a headless browser, replaces the page's notion of time with a virtual
clock (`Date`, `performance.now`, `setTimeout`, `setInterval`,
`requestAnimationFrame` and the clear functions), and optionally replaces
`Math.random` with a seeded xorshift128+ generator. It then advances the
virtual clock one frame duration at a time and captures a screenshot, or a
canvas image, after each step.

This project models that core:

- the virtual clock and its timer queue. `OverwriteTime` gives them as
  functions from one clock state to the next. `VirtualClock.Page` is a class
  whose methods update the clock's variables in place, and each method is
  proved equal to the function that specifies it. `ClockProperties` and
  `ClockMonotonic` prove the clock's invariants and its forward progress.
- the ordering of pending blocks: a stable insertion sort by time then id,
  and removal by id (`PendingBlocks`).
- the seeded random generator (`OverwriteRandom`): the seeds, the
  32-bit-halves xorshift128+ step, the conversion of a state to a number in
  [0, 1), and a class over the two typed arrays.
- the recorder's arithmetic in `index.js` (`Recorder`): frame rate, frame
  count, frame and animation-frame durations, the page URL, file names, and
  the capture loop with its directory creation.
- the helpers of `lib/utils.js` (`Utils`): the file-name converter, directory
  creation and the frame tree.
- the two capturers, screenshot clip geometry (`CaptureScreenshot`) and
  canvas mode (`CaptureCanvas`).
- the `--viewport` option parser of `cli.js` (`Cli`).
- `Js` and `Strings`: the JavaScript number and string operations these
  rely on.

The host functions the program takes from Node.js and its libraries are
parameters of the model:

- `sprintf`
- `path.resolve`
- `path.parse(..).dir`
- `path.extname`
- `Number.prototype.toString` of the frame total
- `parseInt`

`JSON.parse` is not a parameter: a keyed viewport value other than
`width` and `height` is kept as its text, `Cli.Json(text)`.

## Model

| member | source | states |
|---|---|---|
| Js.OrZero | lib/capture-screenshot.js:57-58 | `n \|\| 0` is the number when it is truthy and 0 when it is 0, NaN or missing |
| Js.Ceil | lib/capture-screenshot.js:70-74 | `Math.ceil` is the least integer not below its argument |
| Js.Trunc | lib/overwrite-random.js:79-82 | truncation toward zero, for both signs |
| Js.ToUint32 | lib/overwrite-random.js:79-82 | storing a number into a `Uint32Array` gives a value in [0, 2^32) that agrees with the truncated number modulo 2^32; NaN is stored as 0 |
| Js.Rem | lib/capture-screenshot.js:71 | JavaScript `%` takes the sign of the dividend, is smaller than the divisor in magnitude and differs from the dividend by a multiple of the divisor, which together determine it |
| Strings.IndexOf | lib/capture-canvas.js:43 | `indexOf` is None exactly when the character is absent, else the position of its first occurrence |
| Strings.Split | cli.js:51 | `split` yields at least one part and no part contains the separator |
| Strings.JoinSplit | lib/utils.js:112-114 | joining the parts of a split with the same separator gives back the string |
| Strings.SplitJoin | lib/utils.js:112-114 | splitting a join gives back the parts when none contains the separator |
| Strings.JoinSnoc | lib/utils.js:114 | joining one more part appends the separator and that part |
| Strings.TrimStart | cli.js:67 | drops exactly the leading white space: what it removes is white space and the result does not start with white space |
| Strings.TrimEnd | cli.js:67 | drops exactly the trailing white space |
| Strings.Trim | cli.js:67 | `trim()` returns the slice of the string with only white space before and after it, and the slice neither starts nor ends with white space |
| PendingBlocks.Insert | lib/overwrite-time.js:45-52 | inserting a block yields the old queue plus that block, as a multiset |
| PendingBlocks.InsertSorted | lib/overwrite-time.js:45-52 | inserting into a queue ordered by (time, id) keeps it ordered |
| PendingBlocks.SortBlocks | lib/overwrite-time.js:45-52 | `_sortPendingBlocks` orders the queue by time, then by id |
| PendingBlocks.SortBlocksPermutes | lib/overwrite-time.js:45-52 | the sorted queue is a permutation of the queue: same multiset and same members |
| PendingBlocks.WithoutId | lib/overwrite-time.js:108-114 | removing the blocks of one id never lengthens the queue |
| PendingBlocks.WithoutIdMembers | lib/overwrite-time.js:108-114 | after the removal loop the queue holds exactly the blocks with another id, and is unchanged when no block has that id |
| PendingBlocks.ScanStep | lib/overwrite-time.js:108-114 | one turn of the splice loop, splicing or skipping, keeps the kept prefix followed by the filtered rest unchanged |
| PendingBlocks.WithoutIdAppend | lib/overwrite-time.js:108-114 | removal by id distributes over concatenation |
| PendingBlocks.SortedHeadLeast | lib/overwrite-time.js:65 | the head of an ordered queue comes before every block in it |
| PendingBlocks.SortedHeadIsLeast | lib/overwrite-time.js:57-58 | the block `_processNextBlock` shifts off the sorted queue is in the queue and is least by (time, id) |
| PendingBlocks.InsertDistinct | lib/overwrite-time.js:45-52 | inserting a block with a new id keeps ids distinct |
| PendingBlocks.SortDistinct | lib/overwrite-time.js:45-52 | sorting keeps ids distinct and the same set of ids |
| PendingBlocks.WithoutIdDistinct | lib/overwrite-time.js:108-114 | removal keeps ids distinct |
| OverwriteTime.NormalizeDelay | lib/overwrite-time.js:84-89 | the delay used is never 0; a given nonzero delay is kept; a missing, zero or NaN delay gives exactly 1 |
| OverwriteTime.ApplyActions | lib/overwrite-time.js:72-183 | the timer calls a callback makes never move the clock or the frame time, never log a call, never reuse an id and never forget an interval |
| OverwriteTime.DrainTurn | lib/overwrite-time.js:65-68 | while the head block is due, one turn of the `_processUntilTime` loop runs the step and continues with one turn less |
| ClockProperties.InstallState | lib/overwrite-time.js:36-44 | the installed clock is valid and starts at the given time with no calls and no intervals; with `_updateFrameTime` (lib/overwrite-time.js) exactly one frame updater is queued under id 1, and without it (the copy in index.js) the queue is empty |
| ClockProperties.EnqueueFresh | lib/overwrite-time.js:72-98 | `_setTimeout` returns the id counter, which no pending block or interval uses, appends the block at the current time plus the normalised delay, advances the counter by one and keeps the clock valid |
| ClockProperties.AddIntervalIds | lib/overwrite-time.js:152-180 | `setInterval` returns a fresh id, records a running interval whose pending link has the next id, queues that link after the delay and keeps the clock valid |
| ClockProperties.ClearTimerRemoves | lib/overwrite-time.js:100-115 | `clearTimeout(id)` leaves only old blocks with another id; for a non-interval id the queue is the old one without that id's blocks, in its old order, and nothing changes when there are none; for an interval id the queue is the old one without the blocks of the interval's last call and of the id, in order, a block staying exactly when it has neither id, and the interval's link is gone; it keeps the clock valid |
| ClockProperties.ClearTimerKeeps | lib/overwrite-time.js:168-173 | clearing an interval also removes its pending link |
| ClockProperties.ClearStopsInterval | lib/overwrite-time.js:168-173 | after `clearInterval(id)` the interval is stopped and no link of it is pending |
| ClockProperties.ApplyActionKeeps | lib/overwrite-time.js:72-183 | every timer call keeps the clock valid, never re-queues a link of an interval that has none, never restarts a stopped interval, and a clear of an interval stops it |
| ClockProperties.ApplyActionsFresh | lib/overwrite-time.js:72-183 | after a callback's timer calls every pending block was pending before or has a new id |
| ClockProperties.ApplyActionsKeep | lib/overwrite-time.js:72-183 | the same invariants hold over a whole callback's timer calls, and an interval that a callback clears ends stopped |
| ClockProperties.FireCallbackKeeps | lib/overwrite-time.js:118-166 | running a block keeps the clock valid and does not move the clock; it logs at most that one call; it restarts no stopped interval; only the frame updater changes the frame time, which it sets to the current time |
| ClockProperties.RelinkKeeps | lib/overwrite-time.js:164-166 | re-queuing a running interval's next link uses the next id and keeps the clock valid |
| ClockProperties.NextBlockLeast | lib/overwrite-time.js:53-61 | `_processNextBlock` on an empty queue does nothing; otherwise it runs the least block by (time, id), moves the clock to that block's time, removes it for good and logs at most that call; it keeps the clock valid and never runs a link of a stopped interval |
| ClockProperties.SortPendingKeeps | lib/overwrite-time.js:45-52 | sorting keeps the clock valid, makes the queue ordered and keeps its members |
| ClockProperties.StepKeepsValid | lib/overwrite-time.js:65-68 | the loop body of `_processUntilTime` keeps the clock valid, the queue sorted, the start time fixed and the id counter non-decreasing |
| ClockProperties.StepKeepsSilent | lib/overwrite-time.js:65-68 | the loop body never calls, nor restarts, a stopped interval |
| ClockProperties.NextBlockFired | lib/overwrite-time.js:118-127 | the call logged for the least block: a timeout or interval callback at the block's time with no argument; an animation-frame callback with the frame time (lib/overwrite-time.js) or with nothing (index.js); the frame updater logs nothing and sets the frame time |
| ClockProperties.NextBlockSilent | lib/overwrite-time.js:53-61 | `_processNextBlock` never calls a stopped interval |
| ClockProperties.DrainExact | lib/overwrite-time.js:62-71 | unless the fuel runs out, the loop ends with the clock exactly at `startTime + ms` and nothing pending at or before it; when the fuel runs out, a block is still due |
| ClockProperties.DrainSilent | lib/overwrite-time.js:62-71 | a stopped interval stays stopped and is never called during the loop |
| ClockProperties.UntilTimeExact | lib/overwrite-time.js:62-71 | `_processUntilTime(ms)` keeps the clock valid, ends at `startTime + ms` with no due block left, and never calls a stopped interval |
| ClockProperties.DrainFuel | lib/overwrite-time.js:62-71 | once the loop finishes within some fuel, more fuel gives the same result |
| ClockProperties.SelfClearingIntervalStops | lib/overwrite-time.js:156-173 | an interval whose callback clears itself is not re-queued after that call |
| ClockMonotonic.ApplyActionForward | lib/overwrite-time.js:72-115 | a timer call with no negative delay keeps the clock monotone: nothing pending lies in the past and the log is in time order |
| ClockMonotonic.ApplyActionsForward | lib/overwrite-time.js:72-183 | the same over all timer calls of a callback |
| ClockMonotonic.FireCallbackForward | lib/overwrite-time.js:118-166 | running a callback keeps the clock monotone and only appends to the log, when no callback asks for a negative delay |
| ClockMonotonic.NextBlockForward | lib/overwrite-time.js:53-61 | `_processNextBlock` never moves the clock back and only appends to the log, when no callback asks for a negative delay |
| ClockMonotonic.TurnForward | lib/overwrite-time.js:65-68 | one turn of the loop while a block is due moves the clock forward, but not past `startTime + ms`, when no callback asks for a negative delay |
| ClockMonotonic.StepIsForward | lib/overwrite-time.js:65-68 | the same, for every clock state the loop can see, when no callback asks for a negative delay |
| ClockMonotonic.DrainForward | lib/overwrite-time.js:62-71 | the whole loop keeps the clock monotone and between its old reading and `startTime + ms`, and only appends to the log, when no callback asks for a negative delay |
| ClockMonotonic.UntilTimeForward | lib/overwrite-time.js:192-199 | going to a time not behind the clock never sets the clock back, and the page's callbacks are called in chronological order, when no callback asks for a negative delay |
| ClockMonotonic.InstallForward | lib/overwrite-time.js:36-44 | the installed clock is monotone, when no callback asks for a negative delay |
| VirtualClock.Page.constructor | lib/overwrite-time.js:36-44 | the object's state after installation is `Install` of the start time, with the frame updater queued when the frame time is passed |
| VirtualClock.Page.Now | lib/overwrite-time.js:147-149 | `Date.now()` and `performance.now()` return the virtual time |
| VirtualClock.Page.SortPendingBlocks | lib/overwrite-time.js:45-52 | the in-place sort computes `SortPending` |
| VirtualClock.Page.SetTimeout | lib/overwrite-time.js:72-98 | the method computes `Enqueue` and returns its id |
| VirtualClock.Page.RequestAnimationFrame | lib/overwrite-time.js:117-127 | a timeout of the animation-frame duration |
| VirtualClock.Page.SetInterval | lib/overwrite-time.js:152-180 | the method computes `AddInterval` and returns the interval id |
| VirtualClock.Page.RemoveBlocksWithId | lib/overwrite-time.js:104-114 | the splice loop leaves the queue as `WithoutId` of the old queue |
| VirtualClock.Page.ClearTimeout | lib/overwrite-time.js:100-115 | the method computes `ClearTimer`, stopping an interval first |
| VirtualClock.Page.UpdateFrameTime | lib/overwrite-time.js:129-134 | re-queues itself as an animation frame and sets the frame time to the virtual time |
| VirtualClock.Page.RunScript | lib/overwrite-time.js:72-183 | performs a callback's timer calls in order, as `ApplyActions` |
| VirtualClock.Page.RunCallback | lib/overwrite-time.js:118-166 | runs one block's function, as `FireCallback` |
| VirtualClock.Page.ProcessNextBlock | lib/overwrite-time.js:53-61 | the method computes `NextBlock` |
| VirtualClock.Page.ProcessAndSort | lib/overwrite-time.js:66-67 | one loop body, as `Step` |
| VirtualClock.Page.Turn | lib/overwrite-time.js:65-68 | one test-and-turn of the loop keeps the remaining `Drain` equal to its goal |
| VirtualClock.Page.ProcessUntilTime | lib/overwrite-time.js:62-71 | the in-place loop ends in the state `UntilTime` specifies |
| Utils.ChooseConverter | lib/utils.js:70-87 | a given converter wins, then a truthy output pattern; there is no file exactly when frames go to a frame processor with no output directory; otherwise the default padded name |
| Utils.Decimal | lib/utils.js:83 | `toString()` of a whole number gives decimal digits without a leading zero |
| Utils.DecimalValue | lib/utils.js:83 | those digits denote the number |
| Utils.DecimalLengthMonotone | lib/utils.js:83 | a larger number has at least as many digits |
| Utils.ZerosValue | lib/utils.js:83-84 | leading zeros do not change the value denoted |
| Utils.ZeroPad | lib/utils.js:83-84 | `%0<w>d` gives at least `w` characters, all decimal digits, and denotes the number |
| Utils.PaddedName | lib/utils.js:82-85 | the default name is the frame number in decimal digits, zero-padded to the width of the frame total (or wider when the number needs it), followed by `.png` |
| Utils.PaddedNamesDistinct | lib/utils.js:82-85 | different frame numbers get different default names |
| Utils.PaddedNamesSameLength | lib/utils.js:82-85 | frames 0 to the total all get default names of the same length |
| Utils.FileName | lib/utils.js:72-89 | the name the chosen converter gives: none, the default name, or the `sprintf` of the pattern |
| Utils.FilePath | lib/utils.js:88-95 | a path is returned exactly when the name is truthy, and it is the name resolved against the output path |
| Utils.FilePathDefault | lib/utils.js:81-95 | the default converter always yields a path, and a frame processor with no output directory never does |
| Utils.PrefixLonger | lib/utils.js:113-114 | each longer prefix of the directory parts is a strictly longer path |
| Utils.PrefixesStep | lib/utils.js:113-118 | one more turn of the loop adds its prefix, when that prefix is not empty |
| Utils.ToMakeFresh | lib/utils.js:113-118 | every directory created is non-empty, did not exist before and is a prefix of the path; they are created shortest first |
| Utils.VisitPrefix | lib/utils.js:113-118 | one turn of the loop keeps both loop invariants: the directories are the old ones plus the prefixes visited, and the creations so far followed by those still due equal the planned creations |
| Utils.FileSystem.constructor | lib/utils.js:110-119 | a file system with the given directories and no creations |
| Utils.FileSystem.MakeFileDirectoryIfNeeded | lib/utils.js:110-119 | afterwards every non-empty prefix of the file's directory exists, and exactly the missing ones were created, shortest first |
| Utils.BrowserFrames | lib/utils.js:45-47 | `getBrowserFrames` lists the frame itself first, then one entry per frame of the tree |
| Utils.ChildFrames | lib/utils.js:46 | the children's lists concatenated, one entry per frame below |
| Utils.BrowserFramesMembers | lib/utils.js:45-47 | the list holds exactly the frames of the tree |
| Utils.ChildFramesMembers | lib/utils.js:46 | the children's lists hold exactly the frames below some child |
| Cli.Positional | cli.js:52 | the dimension components are exactly the components without `=` |
| Cli.KeyedComponents | cli.js:65 | the keyed components are exactly the components with `=` |
| Cli.PositionalAppend | cli.js:52 | the dimension filter keeps order across a concatenation |
| Cli.KeyedAppend | cli.js:65 | the keyed filter keeps order across a concatenation |
| Cli.FiltersSingle | cli.js:52-65 | a single component is kept by exactly one of the two filters |
| Cli.NoPositional | cli.js:52 | with every component keyed there are no dimensions |
| Cli.FirstPositional | cli.js:52 | the first component without `=` leads the dimensions |
| Cli.FirstTwoPositional | cli.js:52 | the first two components without `=` are the first two dimensions |
| Cli.ComponentsPartition | cli.js:52-65 | every component is either a dimension or a keyed component, never both, and together they are the components as a multiset |
| Cli.Initial | cli.js:61-64 | the viewport starts with exactly `width` and `height` |
| Cli.InitialDims | cli.js:52-64 | the width and height are `parseInt` of the first two components without `=` |
| Cli.InitialWidthOnly | cli.js:52-64 | with one component without `=`, the width is its `parseInt` and the height is NaN |
| Cli.InitialNoDims | cli.js:52-64 | with no component without `=`, width and height are NaN |
| Cli.SplitKeyed | cli.js:66 | a keyed component splits into at least a key and a value |
| Cli.KeyAndValue | cli.js:66-67 | for `key=value...` the key read is the trimmed key and the value read is the text up to the next `=` |
| Cli.ApplyAll | cli.js:65-73 | the fields afterwards are the old fields plus the keys of the components that have a parser, so a component with an unknown key adds no field |
| Cli.KnownKeys | cli.js:68-71 | only keys with a parser are collected |
| Cli.KnownKeysCover | cli.js:68-71 | every component whose key has a parser contributes its key |
| Cli.KnownKeysFrom | cli.js:68-71 | every collected key is the key of some component |
| Cli.UnknownKeyUnchanged | cli.js:68-69 | a component with an unknown key leaves the viewport as it is |
| Cli.ApplyAllStep | cli.js:65-73 | the components are applied left to right |
| Cli.ComponentKeeps | cli.js:68-72 | a component leaves every other key's field alone |
| Cli.ComponentSets | cli.js:71 | a component with a known key sets that field to its parser's result |
| Cli.ErrorsAreUnknownKeys | cli.js:68-69 | the errors are the old errors followed by one message per component whose key is unknown, in order |
| Cli.UnnamedKeyKept | cli.js:65-73 | a field that no component names keeps its value |
| Cli.LastKeyWins | cli.js:65-73 | when a known key is given several times, the last component that names it decides the field |
| Cli.Options.constructor | cli.js:39 | parsing starts with no errors |
| Cli.Options.ParseViewport | cli.js:50-75 | the loop builds the viewport and the errors that `ApplyAll` specifies from the initial dimensions and the keyed components |
| Cli.PrintedErrors | cli.js:107-112 | the errors are printed, in order, unless `--quiet` is set |
| Recorder.AnimationFrameDuration | index.js:255-260 | the animation-frame duration is the frame duration above 60 fps and 1000/60 otherwise (a negative rate included), so at a positive rate never longer than either |
| Recorder.ResolveFps | index.js:234-253 | a given fps wins; otherwise frames over duration when both are given; otherwise 60 |
| Recorder.ResolveTiming | index.js:234-260 | the frame count is the given frames, or duration (default 5) times fps; frame duration times fps is 1000 |
| Recorder.AnimationFramesFitFrames | index.js:255-260 | at a positive frame rate an animation frame is positive and never longer than a captured frame |
| Recorder.DurationCovered | index.js:244-255 | with fps and duration given, the frames captured span exactly the duration |
| Recorder.IndexConverter | index.js:262-279 | here an output pattern wins over a given converter; without either, streaming gives no file and otherwise the padded name |
| Recorder.ResolveUrl | index.js:217-232 | the page opened is the URL (default `index.html`) when it contains `://`, else a `file://` URL of the path resolved against the working directory; the result always contains `://` |
| Recorder.FrameCount | index.js:354-355 | the loop `frameCount++ < framesToCapture` runs `ceil(framesToCapture)` times, and not at all when it is not positive |
| Recorder.FrameCountWhole | index.js:354-355 | a whole frame total gives exactly that many frames |
| Recorder.Shots | index.js:354-366 | one shot per frame, frames numbered from 1 |
| Recorder.ShotsAt | index.js:357-366 | shot `k` is frame `k + 1` at `delayMs + (k + 1) * frameDuration` into the file its converter names |
| Recorder.ShotsSnoc | index.js:354-366 | one more turn adds exactly the next frame's shot |
| Recorder.FrameTest | index.js:355 | the loop test on the real total agrees with an integer bound |
| Recorder.ShotTimesIncrease | index.js:357 | later frames are captured at strictly later virtual times, at a positive frame rate |
| Recorder.DefaultNames | index.js:274-277 | with the default names every frame gets a name, all of one length and distinct |
| Recorder.NeededDirsSnoc | index.js:359-363 | a frame with a file adds its directories to those needed |
| Recorder.NeededDirsCover | index.js:359-363 | every frame's directories are among those created |
| Recorder.CaptureFrame | index.js:357-366 | one frame: its shot is the next in order and its file's directories now exist |
| Recorder.CaptureFrames | index.js:354-376 | the capture loop takes exactly the specified shots in order and creates exactly the directories their files need |
| OverwriteRandom.SeedArgs | lib/overwrite-random.js:42-61 | nothing is installed for `undefined` and `false`; an array is used as given, a number as a one-seed list and any other value as no seeds; a string gives one seed per comma-separated piece, `parseInt` of that piece; `'random-seed'` gives one whole seed in [1, 10^9] |
| OverwriteRandom.SeedArgsOfList | lib/overwrite-random.js:53-54 | joining seed texts with commas and passing them in gives back `parseInt` of each text, in order |
| OverwriteRandom.Seeded | lib/overwrite-random.js:79-91 | the seeded state is never all zero: the four seeds when any is nonzero, else the defaults 10, 20, 0, 0 |
| OverwriteRandom.Xorshift | lib/overwrite-random.js:93-115 | state0 becomes the old state1 |
| OverwriteRandom.XorshiftIsStep64 | lib/overwrite-random.js:93-115 | the step on 32-bit halves computes the 64-bit xorshift128+ step with shifts 23, 17 and 26 |
| OverwriteRandom.XorshiftZero | lib/overwrite-random.js:84-86 | the all-zero state and only it maps to the all-zero state |
| OverwriteRandom.StepsNonZero | lib/overwrite-random.js:84-86 | a seeded state never becomes all zero |
| OverwriteRandom.StepsLast | lib/overwrite-random.js:131-133 | the warm-up loop takes one more step per turn |
| OverwriteRandom.Numerator | lib/overwrite-random.js:120-129 | the numerator lies in [0, 2^53) |
| OverwriteRandom.HalvesNumerator | lib/overwrite-random.js:120-128 | the carrying sum of the halves lies in [0, 2^53) |
| OverwriteRandom.NumeratorLow53 | lib/overwrite-random.js:120-129 | the numerator is the low 53 bits of the sum of the two 64-bit state words |
| OverwriteRandom.HalvesLow53 | lib/overwrite-random.js:120-128 | adding the halves with a carry and masking 21 bits of the high sum is addition modulo 2^53 |
| OverwriteRandom.Low53 | lib/overwrite-random.js:126-127 | masking the high sum's low 21 bits and appending the low sum keeps 53 bits |
| OverwriteRandom.Low21 | lib/overwrite-random.js:126 | wrapping modulo 2^32 keeps the low 21 bits |
| OverwriteRandom.StatesToDouble | lib/overwrite-random.js:117-129 | `_statesToDouble` lies in [0, 1) |
| OverwriteRandom.Orbit | lib/overwrite-random.js:136-139 | the states after each of `k` calls of `Math.random` |
| OverwriteRandom.Draws | lib/overwrite-random.js:136-139 | `k` calls of `Math.random` give `k` values in [0, 1) |
| OverwriteRandom.OrbitAt | lib/overwrite-random.js:136-139 | the state after call `i + 1` is the seed stepped `i + 1` times |
| OverwriteRandom.DrawsAreSteps | lib/overwrite-random.js:136-139 | call `i + 1` returns the value of the state stepped `i + 1` times |
| OverwriteRandom.Installed | lib/overwrite-random.js:79-133 | the installed state after ten warm-up steps is never all zero |
| OverwriteRandom.Generator.constructor | lib/overwrite-random.js:70-133 | the typed arrays end seeded and warmed up, as `Installed` |
| OverwriteRandom.Generator.SeedArrays | lib/overwrite-random.js:70-91 | two fresh two-word arrays holding the seeded state |
| OverwriteRandom.Generator.Xorshift128 | lib/overwrite-random.js:93-115 | the in-place step computes `Xorshift` |
| OverwriteRandom.Generator.Random | lib/overwrite-random.js:136-139 | `Math.random` steps once, then returns the new state's value |
| CaptureScreenshot.Offset | lib/capture-screenshot.js:55-56 | `xOffset \|\| left \|\| 0` |
| CaptureScreenshot.Extent | lib/capture-screenshot.js:62-68 | a given size wins; otherwise the size, the offset and the far margin add up to the available size |
| CaptureScreenshot.RoundToEven | lib/capture-screenshot.js:71-77 | rounding to even adds at most 1 and, when on, makes a non-negative size even |
| CaptureScreenshot.Size | lib/capture-screenshot.js:70-77 | the clip size is the ceiling of the extent; rounded to even, it is the least even integer not below an extent above -1, and the ceiling otherwise |
| CaptureScreenshot.ClipGeometry | lib/capture-screenshot.js:53-83 | the clip's corner is the offset, shifted by the element's scroll position and position when a selector found one |
| CaptureScreenshot.ClipCovers | lib/capture-screenshot.js:55-77 | the clip covers the requested extent and is at most 1 pixel larger, or 2 when rounded to even |
| CaptureScreenshot.Validate | lib/capture-screenshot.js:84-89 | a clip is accepted exactly when both sizes are positive; the height is checked first, with the source's four messages |
| CaptureScreenshot.ValidEvenWidth | lib/capture-screenshot.js:70-89 | an accepted clip with rounding on has an even width |
| CaptureScreenshot.ValidEvenHeight | lib/capture-screenshot.js:74-89 | an accepted clip with rounding on has an even height |
| CaptureScreenshot.IndexClipGeometry | index.js:333-353 | index.js places the clip at the offsets (moved by the element's scroll position and box), uses a given width or height as it is, otherwise takes the ceiling of the element's size before subtracting the margins, or the viewport's size minus the margins, and does not round |
| CaptureScreenshot.IndexClipAgrees | index.js:339-347 | with whole offsets and margins and no rounding to even, index.js and lib/capture-screenshot.js give the same width |
| CaptureScreenshot.ScreenshotCapturer.constructor | lib/capture-screenshot.js:35-40 | a capturer with no clip yet and no screenshots |
| CaptureScreenshot.ScreenshotCapturer.BeforeCapture | lib/capture-screenshot.js:42-91 | stores the clip geometry and reports the validation result |
| CaptureScreenshot.ScreenshotCapturer.Capture | lib/capture-screenshot.js:92-111 | takes one screenshot with the stored clip into the frame's file path, after creating its directories |
| CaptureCanvas.Payload | lib/capture-canvas.js:43 | the payload is the suffix after the first comma, or the whole URL when there is none |
| CaptureCanvas.PayloadOfDataUrl | lib/capture-canvas.js:43 | the payload of `header,data` is `data` |
| CaptureCanvas.DropFirst | lib/capture-canvas.js:61 | `substring(1)` drops the first character, if any |
| CaptureCanvas.WithImagePrefix | lib/capture-canvas.js:66-68 | the mode starts with `image/` and is only prefixed when it did not already |
| CaptureCanvas.NormalizeMode | lib/capture-canvas.js:59-68 | the mode is the given one, else the file extension, else `png`, always prefixed with `image/` |
| CaptureCanvas.ModeSettles | lib/capture-canvas.js:60-68 | once chosen, the canvas mode never changes on later frames |
| CaptureCanvas.CanvasCapturer.constructor | lib/capture-canvas.js:48-56 | the selector defaults to `canvas`; there are no pending writes and no shots |
| CaptureCanvas.CanvasCapturer.Capture | lib/capture-canvas.js:58-90 | settles the mode, captures the canvas in it, and queues a write when the frame has a file |
| CaptureCanvas.CanvasCapturer.AfterCapture | lib/capture-canvas.js:91-93 | waits for exactly the queued writes |

The definitions that model a source function without stating a property of
their own, and that the lemmas above are about:

- `OverwriteTime.Install`: lib/overwrite-time.js:36-44 and 129-135 (the state `overwriteTime` sets up, with the first frame-time update)
- `OverwriteTime.Enqueue`: lib/overwrite-time.js:72-98 (`_setTimeout`)
- `OverwriteTime.ClearTimer`: lib/overwrite-time.js:100-115 (`_clearTimeout`)
- `OverwriteTime.AddInterval`: lib/overwrite-time.js:152-180 (`setInterval`)
- `OverwriteTime.FireCallback`: lib/overwrite-time.js:118-166 (the callbacks a block runs)
- `OverwriteTime.Relink`: lib/overwrite-time.js:164-166 (an interval queuing its next call)
- `OverwriteTime.NextBlock`: lib/overwrite-time.js:53-61 (`_processNextBlock`)
- `OverwriteTime.Step`: lib/overwrite-time.js:65-68 (one turn of the `_processUntilTime` loop)
- `OverwriteTime.Drain`: lib/overwrite-time.js:62-71 (the `_processUntilTime` loop)
- `OverwriteTime.UntilTime`: lib/overwrite-time.js:62-71 (`_processUntilTime`)
- `Cli.ParseField`: cli.js:53-59 and 71 (the parser table)
- `Cli.KeyOf`: cli.js:66-67 (the trimmed key)
- `Cli.ValueOf`: cli.js:66 and 71 (`components[1]`)
- `Cli.ApplyComponent`: cli.js:65-72 (one turn of the `forEach`)
- `Recorder.ShotTime`: index.js:357 (`delayMs + frameCount * frameDuration`)
- `Recorder.ShotAt`: index.js:357-366 (one turn of the capture loop)
- `Recorder.NeededDirs`: index.js:359-363 (the directories the captured files need)
- `Utils.Prefixes`: lib/utils.js:113-114 (the prefixes `currDir` takes)
- `Utils.ToMake`: lib/utils.js:113-118 (the prefixes `mkdirSync` creates)

## Left out

- Puppeteer, the browser, page loading, `page.screenshot`, `toDataURL` and file writing are outside the model. Promises and `async` ordering are outside it too. A capture is recorded as a value: the shot list, the pending writes.
- The real time at installation is a parameter of `Install` and of `VirtualClock.Page.constructor`. `Math.random()` for `'random-seed'` is the parameter `draw` of `SeedArgs`. The working directory is a parameter of `ResolveUrl`.
- `sprintf`, `path.resolve`, `path.parse(..).dir`, `path.extname`, the frame total's `toString` and `parseInt` are parameters (`Utils.Host`, `parseInt`), with no properties assumed. `path.sep` is `FileSystem.sep`. `fs.existsSync` and `fs.mkdirSync` are the set `FileSystem.dirs`.
- Numbers are reals and integers, not IEEE doubles: rounding, overflow to infinity and `-0` are not modelled. A NaN or missing delay is `None`.
- Callbacks given as strings (`eval`) and the extra arguments of `setTimeout`/`setInterval` are not modelled. The `Date` subclass is modelled only through `Now`. A page callback's behaviour is the list of timer calls it makes (`Env.script`).
- OverwriteTime.Env: the timer calls a callback makes depend only on its tag, so they are the same on every call, whatever the virtual time, the frame-time argument or the number of earlier calls; a callback such as one that clears its own interval on its third call cannot be written. A callback cannot throw: in the source a throw from `block.fn.apply` (lib/overwrite-time.js:60) leaves `_processUntilTime` with the clock at the failing block's time and the other due blocks queued, and an interval whose function throws (line 158) is not relinked and never fires again; none of this is modelled.
- ClockMonotonic.UntilTimeForward: the forward-progress lemmas assume that no callback asks for a negative delay (`Forward(env)`). The source replaces only zero and NaN delays (lib/overwrite-time.js:85), so `setTimeout(f, -100)` queues a block in the past, and running it (line 59) sets the virtual time back; the model does the same and makes no claim there.
- OverwriteTime.Drain: `_processUntilTime` is bounded by a fuel count. Its results say when the fuel ran out, and `DrainFuel` shows that more fuel does not change a finished run. An unbounded loop, a page that keeps queueing blocks due before the target, is not captured.
- PendingBlocks.SortBlocks: `Array.prototype.sort` is modelled by a stable insertion sort. Ids are distinct in every reachable state (`ClockProperties.Valid`), so the order is total and any correct sort gives the same queue.
- The directories that canvas writes create (`writeFile` in lib/utils.js) and base64 decoding are not modelled.
- The frame processor, the output stream and logging are not modelled. The tool's other entry points (`lib/immediate-canvas-handler.js`, the `commander` option table, launch options and the start/stop functions) are not part of this model.
- Cli.ApplyComponent: a key that names a property every object inherits (such as `constructor` or `toString`) passes the source's `parsers[key]` test and calls that inherited function. The model reports it as an unknown key.
- OverwriteRandom.XorshiftIsStep64: stated over the four 32-bit halves, through `NextHigh` and `NextLow`, rather than over a `State` value.
- Recorder.ShotTime: `delayMs` stands for `1000 * config.start` (index.js:218), taken as a number. index.js:216 gives a default only to `url`, so a missing `start`, or `--start` text that `parseFloat` cannot read, makes it NaN. Every `goToTime` then runs no block and leaves the clock at NaN, so `ShotTimesIncrease` does not hold there. This case is not modelled.
- Cli.ParseField: `JSON.parse` is kept as the uninterpreted text `Json(text)`. Malformed JSON, which throws a `SyntaxError` out of the option parser (cli.js:71), is not modelled: `isMobile=yes` gives `Json("yes")` rather than an error.
- Utils.PaddedName: the default name reads `sprintf`'s `%0<w>d.png` directly as `ZeroPad` rather than through `host.format`.
- CaptureScreenshot.IndexClipGeometry: index.js does not validate its clip, and neither does this model of it.

=== FILE: capture_canvas.dfy ===
/**
 * The canvas capturer of lib/capture-canvas.js: the image type it asks
 * the canvas for, how the base64 payload is cut out of the data URL, and
 * the writes it leaves pending until `afterCapture`.
 */
module CaptureCanvas {
  import opened Wrappers
  import Strings
  import opened Utils

  const DefaultCanvasMode: string := "png"
  const DefaultSelector: string := "canvas"

  /** `dataUrl.slice(dataUrl.indexOf(',') + 1)`: what follows the first comma, or everything when there is none. */
  function Payload(dataUrl: string): (r: string)
    ensures |r| <= |dataUrl| && r == dataUrl[|dataUrl| - |r|..]
    ensures ',' !in dataUrl ==> r == dataUrl
    ensures ',' in dataUrl ==> |r| < |dataUrl| && dataUrl[|dataUrl| - |r| - 1] == ',' && ',' !in dataUrl[..|dataUrl| - |r| - 1]
  {
    match Strings.IndexOf(dataUrl, ',')
    case None => dataUrl
    case Some(k) => dataUrl[k + 1..]
  }

  /** A data URL whose header has no comma gives back exactly its data. */
  lemma PayloadOfDataUrl(header: string, data: string)
    requires ',' !in header
    ensures Payload(header + "," + data) == data
  {
    var s := header + "," + data;
    assert s[|header|] == ',';
    assert s[..|header|] == header;
    assert Strings.IndexOf(s, ',') == Some(|header|);
    assert s[|header| + 1..] == data;
  }

  /** `s.substring(1)`. */
  function DropFirst(s: string): (r: string)
    ensures |s| > 0 ==> r == s[1..]
    ensures |s| == 0 ==> r == ""
  {
    if |s| == 0 then s else s[1..]
  }

  /** `'image/'` is put in front only when it is not there already. */
  function WithImagePrefix(m: string): (r: string)
    ensures Strings.StartsWith(r, "image/")
    ensures Strings.StartsWith(m, "image/") ==> r == m
    ensures !Strings.StartsWith(m, "image/") ==> r == "image/" + m
  {
    if Strings.StartsWith(m, "image/") then m else "image/" + m
  }

  /**
   * The `canvasMode` after a `capture` that found `filePath`: a mode that is
   * not a string (None) takes the file's extension without its dot when
   * there is a file and `'png'` otherwise, then gets the `image/` prefix.
   */
  function NormalizeMode(host: Host, mode: Option<string>, filePath: Option<string>): (r: string)
    ensures Strings.StartsWith(r, "image/")
    ensures mode.Some? ==> r == WithImagePrefix(mode.value)
    ensures mode.None? && filePath.Some? ==> r == WithImagePrefix(DropFirst(host.extname(filePath.value)))
    ensures mode.None? && filePath.None? ==> r == "image/png"
  {
    var m := if filePath.Some? && mode.None? then Some(DropFirst(host.extname(filePath.value))) else mode;
    var m := if m.None? then DefaultCanvasMode else m.value;
    WithImagePrefix(m)
  }

  /**
   * Once a capture has fixed the mode, no later capture changes it,
   * whatever file it writes: normalising is idempotent and the mode is a
   * string from then on.
   */
  lemma ModeSettles(host: Host, mode: Option<string>, first: Option<string>, later: Option<string>)
    ensures var m := NormalizeMode(host, mode, first);
      NormalizeMode(host, Some(m), later) == m
  {
  }

  /** One request for the canvas image: the selector, the image type and the file it goes to. */
  datatype CanvasShot = CanvasShot(selector: string, mode: string, path: Option<string>)

  /** The object lib/capture-canvas.js returns, with its closure variables. */
  class CanvasCapturer {
    const host: Host
    const converter: Converter
    const outputPath: string
    /** `canvasSelector`: `config.selector || 'canvas'`. */
    const selector: string
    /** `canvasMode`: None while it is not a string. */
    var canvasMode: Option<string>
    /** The files whose writes are pending, in capture order (`waitForWriting` is always false). */
    var pendingWritePromises: seq<string>
    var shots: seq<CanvasShot>

    constructor (host: Host, converter: Converter, outputPath: string, canvasMode: Option<string>, selector: Option<string>)
      ensures this.host == host && this.converter == converter && this.outputPath == outputPath
      ensures this.selector == if TruthyText(selector) then selector.value else DefaultSelector
      ensures this.canvasMode == canvasMode && pendingWritePromises == [] && shots == []
    {
      this.host := host;
      this.converter := converter;
      this.outputPath := outputPath;
      this.selector := if TruthyText(selector) then selector.value else DefaultSelector;
      this.canvasMode := canvasMode;
      pendingWritePromises := [];
      shots := [];
    }

    /** `capture(config, frameCount, framesToCapture)`. */
    method Capture(frameCount: nat, framesToCapture: real)
      modifies this
      ensures var path := FilePath(host, converter, outputPath, frameCount, framesToCapture);
        canvasMode == Some(NormalizeMode(host, old(canvasMode), path)) &&
        shots == old(shots) + [CanvasShot(selector, canvasMode.value, path)] &&
        pendingWritePromises == old(pendingWritePromises) + (if path.Some? then [path.value] else [])
    {
      var filePath := FilePath(host, converter, outputPath, frameCount, framesToCapture);
      if filePath.Some? && canvasMode.None? {
        canvasMode := Some(DropFirst(host.extname(filePath.value)));
      }
      if canvasMode.None? {
        canvasMode := Some(DefaultCanvasMode);
      }
      if !Strings.StartsWith(canvasMode.value, "image/") {
        canvasMode := Some("image/" + canvasMode.value);
      }
      shots := shots + [CanvasShot(selector, canvasMode.value, filePath)];
      if filePath.Some? {
        pendingWritePromises := pendingWritePromises + [filePath.value];
      }
    }

    /** `afterCapture`: wait for every pending write. */
    method AfterCapture() returns (waited: seq<string>)
      ensures waited == pendingWritePromises
    {
      waited := pendingWritePromises;
    }
  }
}

=== FILE: capture_screenshot.dfy ===
/**
 * The screenshot capturer of lib/capture-screenshot.js: the clip that
 * `beforeCapture` computes from the offsets, the selected element or the
 * viewport, its rounding and its validation, and the file each `capture`
 * writes. The clip computation of index.js, which ceils before subtracting
 * and neither rounds to even nor validates, is modelled beside it.
 */
module CaptureScreenshot {
  import opened Wrappers
  import opened Js
  import opened Utils

  /** The bounding box of the selected element and the page's scroll position. */
  datatype Dimensions = Dimensions(width: real, height: real, scrollX: real, scrollY: real, left: real, top: real)

  datatype Viewport = Viewport(width: real, height: real)

  /** The options the clip is computed from; a falsy number (0, NaN, undefined) counts as absent. */
  datatype ClipConfig = ClipConfig(
    xOffset: Num, left: Num, yOffset: Num, top: Num, right: Num, bottom: Num,
    width: Num, height: Num, roundToEvenWidth: bool, roundToEvenHeight: bool)

  /** `screenshotClip`. */
  datatype Clip = Clip(x: real, y: real, width: int, height: int)

  /** `primary || secondary || 0`: a zero or missing value falls through to the next one. */
  function Offset(primary: Num, secondary: Num): (r: real)
    ensures Truthy(primary) ==> r == primary.value
    ensures !Truthy(primary) && Truthy(secondary) ==> r == secondary.value
    ensures !Truthy(primary) && !Truthy(secondary) ==> r == 0.0
  {
    OrZero(Or(primary, secondary))
  }

  /** `given || (available - start - end)`: a non-zero given size wins over what is left of the area. */
  function Extent(given: Num, available: real, start: real, end: real): (r: real)
    ensures Truthy(given) ==> r == given.value
    ensures !Truthy(given) ==> r + start + end == available
  {
    if Truthy(given) then given.value else available - start - end
  }

  /**
   * The round-to-even step: an odd size is incremented once when the option
   * is set. JavaScript's `%` keeps the sign of the dividend, so a negative
   * odd size gives -1, not 1, and is left as it is.
   */
  function RoundToEven(w: int, on: bool): (r: int)
    ensures r == w || r == w + 1
    ensures !on || w < 0 ==> r == w
    ensures on && w >= 0 ==> r % 2 == 0
  {
    if on && Rem(w, 2) == 1 then w + 1 else w
  }

  /** A size of the clip: ceiled, then rounded to even when asked. */
  function Size(extent: real, even: bool): (r: int)
    ensures extent <= r as real < extent + 2.0
    ensures !even ==> r as real < extent + 1.0
    ensures even && extent > -1.0 ==> r % 2 == 0 && (r - 2) as real < extent
    ensures even && extent <= -1.0 ==> (r - 1) as real < extent
  {
    RoundToEven(Ceil(extent), even)
  }

  /** The clip `beforeCapture` computes, with the element's dimensions when an element was found. */
  function ClipGeometry(cfg: ClipConfig, dims: Option<Dimensions>, viewport: Viewport): (c: Clip)
    ensures var x0, y0 := Offset(cfg.xOffset, cfg.left), Offset(cfg.yOffset, cfg.top);
      c.x == (if dims.Some? then x0 + dims.value.scrollX + dims.value.left else x0) &&
      c.y == (if dims.Some? then y0 + dims.value.scrollY + dims.value.top else y0)
  {
    var x := Offset(cfg.xOffset, cfg.left);
    var y := Offset(cfg.yOffset, cfg.top);
    var right := OrZero(cfg.right);
    var bottom := OrZero(cfg.bottom);
    match dims
    case Some(d) =>
      var width := Extent(cfg.width, d.width, x, right);
      var height := Extent(cfg.height, d.height, y, bottom);
      Clip(x + d.scrollX + d.left, y + d.scrollY + d.top, Size(width, cfg.roundToEvenWidth), Size(height, cfg.roundToEvenHeight))
    case None =>
      var width := Extent(cfg.width, viewport.width, x, right);
      var height := Extent(cfg.height, viewport.height, y, bottom);
      Clip(x, y, Size(width, cfg.roundToEvenWidth), Size(height, cfg.roundToEvenHeight))
  }

  /**
   * The clip covers the requested area: its width is at least the given
   * width, or what the element or viewport leaves beside the offsets, and
   * less than one pixel more (two with round-to-even).
   */
  lemma ClipCovers(cfg: ClipConfig, dims: Option<Dimensions>, viewport: Viewport)
    ensures var c := ClipGeometry(cfg, dims, viewport);
      var available := if dims.Some? then dims.value.width else viewport.width;
      var w := Extent(cfg.width, available, Offset(cfg.xOffset, cfg.left), OrZero(cfg.right));
      w <= c.width as real < w + (if cfg.roundToEvenWidth then 2.0 else 1.0)
    ensures var c := ClipGeometry(cfg, dims, viewport);
      var available := if dims.Some? then dims.value.height else viewport.height;
      var h := Extent(cfg.height, available, Offset(cfg.yOffset, cfg.top), OrZero(cfg.bottom));
      h <= c.height as real < h + (if cfg.roundToEvenHeight then 2.0 else 1.0)
  {
  }

  /** The checks at the end of `beforeCapture`: the height first, then the width. */
  function Validate(c: Clip): (r: Result<Clip>)
    ensures r.Ok? <==> c.width > 0 && c.height > 0
    ensures r.Ok? ==> r.value == c
    ensures c.height < 0 ==> r == Error("Capture height is negative!")
    ensures c.height == 0 ==> r == Error("Capture height is 0!")
    ensures c.height > 0 && c.width < 0 ==> r == Error("Capture width is negative!")
    ensures c.height > 0 && c.width == 0 ==> r == Error("Capture width is 0!")
  {
    if c.height <= 0 then Error("Capture height is " + (if c.height < 0 then "negative!" else "0!"))
    else if c.width <= 0 then Error("Capture width is " + (if c.width < 0 then "negative!" else "0!"))
    else Ok(c)
  }

  /** A clip that passes the checks has an even width when round-to-even is set. */
  lemma ValidEvenWidth(cfg: ClipConfig, dims: Option<Dimensions>, viewport: Viewport)
    requires cfg.roundToEvenWidth && Validate(ClipGeometry(cfg, dims, viewport)).Ok?
    ensures ClipGeometry(cfg, dims, viewport).width % 2 == 0
  {
  }

  /** A clip that passes the checks has an even height when round-to-even is set. */
  lemma ValidEvenHeight(cfg: ClipConfig, dims: Option<Dimensions>, viewport: Viewport)
    requires cfg.roundToEvenHeight && Validate(ClipGeometry(cfg, dims, viewport)).Ok?
    ensures ClipGeometry(cfg, dims, viewport).height % 2 == 0
  {
  }

  /** The clip of index.js, with sizes in pixels that are not rounded. */
  datatype RawClip = RawClip(x: real, y: real, width: real, height: real)

  /** index.js: the element's size is ceiled before the offsets are taken off. */
  function IndexClipGeometry(cfg: ClipConfig, dims: Option<Dimensions>, viewport: Viewport): (c: RawClip)
    ensures var x0, y0 := Offset(cfg.xOffset, cfg.left), Offset(cfg.yOffset, cfg.top);
      c.x == (if dims.Some? then x0 + dims.value.scrollX + dims.value.left else x0) &&
      c.y == (if dims.Some? then y0 + dims.value.scrollY + dims.value.top else y0)
    ensures Truthy(cfg.width) ==> c.width == cfg.width.value
    ensures Truthy(cfg.height) ==> c.height == cfg.height.value
    ensures dims.Some? && !Truthy(cfg.width) ==>
      c.width == Ceil(dims.value.width) as real - Offset(cfg.xOffset, cfg.left) - OrZero(cfg.right)
    ensures dims.Some? && !Truthy(cfg.height) ==>
      c.height == Ceil(dims.value.height) as real - Offset(cfg.yOffset, cfg.top) - OrZero(cfg.bottom)
    ensures dims.None? && !Truthy(cfg.width) ==>
      c.width == viewport.width - Offset(cfg.xOffset, cfg.left) - OrZero(cfg.right)
    ensures dims.None? && !Truthy(cfg.height) ==>
      c.height == viewport.height - Offset(cfg.yOffset, cfg.top) - OrZero(cfg.bottom)
  {
    var x := Offset(cfg.xOffset, cfg.left);
    var y := Offset(cfg.yOffset, cfg.top);
    var right := OrZero(cfg.right);
    var bottom := OrZero(cfg.bottom);
    match dims
    case Some(d) =>
      var width := Extent(cfg.width, Ceil(d.width) as real, x, right);
      var height := Extent(cfg.height, Ceil(d.height) as real, y, bottom);
      RawClip(x + d.scrollX + d.left, y + d.scrollY + d.top, width, height)
    case None =>
      RawClip(x, y, Extent(cfg.width, viewport.width, x, right), Extent(cfg.height, viewport.height, y, bottom))
  }

  /** Ceiling commutes with taking off a whole number. */
  lemma CeilMinusWhole(a: real, n: int)
    ensures Ceil(a - n as real) == Ceil(a) - n
  {
    var c := Ceil(a);
    assert a - n as real <= (c - n) as real < a - n as real + 1.0;
  }

  /**
   * With whole-pixel offsets and no rounding to even, the two copies agree
   * on the clip width.
   */
  lemma IndexClipAgrees(cfg: ClipConfig, dims: Option<Dimensions>, viewport: Viewport, x: int, right: int)
    requires Offset(cfg.xOffset, cfg.left) == x as real && OrZero(cfg.right) == right as real
    requires !cfg.roundToEvenWidth
    requires Truthy(cfg.width) ==> cfg.width.value == Ceil(cfg.width.value) as real
    requires dims.None? ==> viewport.width == Ceil(viewport.width) as real
    ensures ClipGeometry(cfg, dims, viewport).width as real == IndexClipGeometry(cfg, dims, viewport).width
  {
    if dims.Some? && !Truthy(cfg.width) {
      CeilMinusWhole(dims.value.width, x + right);
      assert dims.value.width - x as real - right as real == dims.value.width - (x + right) as real;
    } else if dims.None? && !Truthy(cfg.width) {
      CeilMinusWhole(viewport.width, x + right);
      assert viewport.width - x as real - right as real == viewport.width - (x + right) as real;
    }
  }

  /** One screenshot request: the file (if any) and the clip current when it was taken. */
  datatype Screenshot = Screenshot(path: Option<string>, clip: Option<Clip>)

  /** The object lib/capture-screenshot.js returns, with the closure variable `screenshotClip`. */
  class ScreenshotCapturer {
    const host: Host
    const cfg: ClipConfig
    const converter: Converter
    const outputPath: string
    /** `screenshotClip`: undefined until `beforeCapture` runs. */
    var clip: Option<Clip>
    var screenshots: seq<Screenshot>

    constructor (host: Host, cfg: ClipConfig, converter: Converter, outputPath: string)
      ensures this.host == host && this.cfg == cfg && this.converter == converter && this.outputPath == outputPath
      ensures clip == None && screenshots == []
    {
      this.host := host;
      this.cfg := cfg;
      this.converter := converter;
      this.outputPath := outputPath;
      clip := None;
      screenshots := [];
    }

    /**
     * `beforeCapture`, given what `getSelectorDimensions` found: the clip
     * is stored before it is checked, so it is kept even when the check
     * throws.
     */
    method BeforeCapture(dims: Option<Dimensions>, viewport: Viewport) returns (r: Result<Clip>)
      modifies this
      ensures clip == Some(ClipGeometry(cfg, dims, viewport))
      ensures r == Validate(ClipGeometry(cfg, dims, viewport))
      ensures screenshots == old(screenshots)
    {
      var c := ClipGeometry(cfg, dims, viewport);
      clip := Some(c);
      if c.height <= 0 {
        return Error("Capture height is " + (if c.height < 0 then "negative!" else "0!"));
      }
      if c.width <= 0 {
        return Error("Capture width is " + (if c.width < 0 then "negative!" else "0!"));
      }
      r := Ok(c);
    }

    /** `capture(config, frameCount, framesToCapture)`: make the file's directories, if it has a file, then take the screenshot. */
    method Capture(frameCount: nat, framesToCapture: real, fs: FileSystem)
      modifies this, fs
      ensures var path := FilePath(host, converter, outputPath, frameCount, framesToCapture);
        screenshots == old(screenshots) + [Screenshot(path, clip)] &&
        fs.dirs == old(fs.dirs) + (if path.Some? then Directories(host, fs.sep, path.value) else {})
      ensures clip == old(clip)
    {
      var filePath := FilePath(host, converter, outputPath, frameCount, framesToCapture);
      if filePath.Some? {
        fs.MakeFileDirectoryIfNeeded(host, filePath.value);
      }
      screenshots := screenshots + [Screenshot(filePath, clip)];
    }
  }
}

=== FILE: cli.dfy ===
/**
 * The parser of the `--viewport` option of cli.js, which fills a viewport
 * object and collects the errors that are printed, unless the output is
 * quiet, once the options are parsed.
 */
module Cli {
  import opened Wrappers
  import opened Js
  import Strings

  /**
   * A viewport field: the number `parseInt` gives, or what `JSON.parse`
   * gives for a text (not interpreted here).
   */
  datatype Field = Int(n: Num) | Json(text: string)

  /** The viewport object, by key. */
  type Viewport = map<string, Field>

  /** The keys that have a parser. */
  predicate IsKey(key: string) {
    key == "deviceScaleFactor" || key == "isMobile" || key == "hasTouch"
    || key == "width" || key == "height" || key == "isLandscape"
  }

  /** `parsers[key](text)`: `parseInt` for the sizes, `JSON.parse` for the rest. */
  function ParseField(parseInt: string -> Num, key: string, text: string): Field {
    if key == "width" || key == "height" then Int(parseInt(text)) else Json(text)
  }

  /** A component contains `=`. */
  predicate Keyed(c: string) {
    '=' in c
  }

  /** The components without `=`, in order. */
  function Positional(comps: seq<string>): (r: seq<string>)
    ensures forall i :: 0 <= i < |r| ==> !Keyed(r[i])
    ensures |r| <= |comps|
    ensures forall x :: x in r <==> x in comps && !Keyed(x)
  {
    if comps == [] then []
    else (if Keyed(comps[0]) then [] else [comps[0]]) + Positional(comps[1..])
  }

  /** The components with `=`, in order. */
  function KeyedComponents(comps: seq<string>): (r: seq<string>)
    ensures forall i :: 0 <= i < |r| ==> Keyed(r[i])
    ensures |r| <= |comps|
    ensures forall x :: x in r <==> x in comps && Keyed(x)
  {
    if comps == [] then []
    else (if Keyed(comps[0]) then [comps[0]] else []) + KeyedComponents(comps[1..])
  }

  /** The dimensions of a list of components are those of its parts, in order. */
  lemma {:induction false} PositionalAppend(a: seq<string>, b: seq<string>)
    ensures Positional(a + b) == Positional(a) + Positional(b)
    decreases |a|
  {
    if a != [] {
      assert (a + b)[1..] == a[1..] + b;
      PositionalAppend(a[1..], b);
    } else {
      assert a + b == b;
    }
  }

  /** The keyed components of a list of components are those of its parts, in order. */
  lemma {:induction false} KeyedAppend(a: seq<string>, b: seq<string>)
    ensures KeyedComponents(a + b) == KeyedComponents(a) + KeyedComponents(b)
    decreases |a|
  {
    if a != [] {
      assert (a + b)[1..] == a[1..] + b;
      KeyedAppend(a[1..], b);
    } else {
      assert a + b == b;
    }
  }

  /** A single component goes to exactly one side: the dimensions without `=`, the keyed ones with it. */
  lemma FiltersSingle(c: string)
    ensures Positional([c]) == (if Keyed(c) then [] else [c])
    ensures KeyedComponents([c]) == (if Keyed(c) then [c] else [])
  {
    assert [c][1..] == [];
  }

  /** Every component is positional or keyed, and lands in exactly one of the two lists. */
  lemma {:induction false} ComponentsPartition(comps: seq<string>)
    ensures |Positional(comps)| + |KeyedComponents(comps)| == |comps|
    ensures multiset(Positional(comps)) + multiset(KeyedComponents(comps)) == multiset(comps)
  {
    if comps != [] {
      ComponentsPartition(comps[1..]);
      assert comps == [comps[0]] + comps[1..];
    }
  }

  /** A run of keyed components holds no dimension. */
  lemma {:induction false} NoPositional(comps: seq<string>)
    requires forall k :: 0 <= k < |comps| ==> Keyed(comps[k])
    ensures Positional(comps) == []
  {
    if comps != [] {
      NoPositional(comps[1..]);
    }
  }

  /** `parseInt` of the `i`-th positional component, or undefined. */
  function Dim(parseInt: string -> Num, dims: seq<string>, i: nat): Num {
    if i < |dims| then parseInt(dims[i]) else NaN
  }

  /** `{width: dims[0], height: dims[1]}`: further positional components are ignored. */
  function Initial(parseInt: string -> Num, comps: seq<string>): (v: Viewport)
    ensures v.Keys == {"width", "height"}
  {
    var dims := Positional(comps);
    map["width" := Int(Dim(parseInt, dims, 0)), "height" := Int(Dim(parseInt, dims, 1))]
  }

  /** The first component without `=` heads the dimensions, followed by those of the rest. */
  lemma {:induction false} FirstPositional(comps: seq<string>, i: nat)
    requires i < |comps| && !Keyed(comps[i])
    requires forall k :: 0 <= k < i ==> Keyed(comps[k])
    ensures Positional(comps) == [comps[i]] + Positional(comps[i + 1..])
    decreases i
  {
    if i > 0 {
      FirstPositional(comps[1..], i - 1);
      assert comps[1..][i..] == comps[i + 1..];
    }
  }

  /** The first two components without `=` are the first two dimensions. */
  lemma {:induction false} FirstTwoPositional(comps: seq<string>, i: nat, j: nat)
    requires i < j < |comps| && !Keyed(comps[i]) && !Keyed(comps[j])
    requires forall k :: 0 <= k < j && k != i ==> Keyed(comps[k])
    ensures |Positional(comps)| >= 2 && Positional(comps)[0] == comps[i] && Positional(comps)[1] == comps[j]
    decreases i
  {
    if i == 0 {
      FirstPositional(comps[1..], j - 1);
    } else {
      FirstTwoPositional(comps[1..], i - 1, j - 1);
    }
  }

  /**
   * The first two components without `=` are the width and the height,
   * whatever keyed components come before, between or after them, and
   * whatever follows.
   */
  lemma InitialDims(parseInt: string -> Num, comps: seq<string>, i: nat, j: nat)
    requires i < j < |comps| && !Keyed(comps[i]) && !Keyed(comps[j])
    requires forall k :: 0 <= k < j && k != i ==> Keyed(comps[k])
    ensures Initial(parseInt, comps) == map["width" := Int(parseInt(comps[i])), "height" := Int(parseInt(comps[j]))]
  {
    FirstTwoPositional(comps, i, j);
  }

  /** With a single component without `=`, it is the width and the height is undefined. */
  lemma InitialWidthOnly(parseInt: string -> Num, comps: seq<string>, i: nat)
    requires i < |comps| && !Keyed(comps[i])
    requires forall k :: 0 <= k < |comps| && k != i ==> Keyed(comps[k])
    ensures Initial(parseInt, comps) == map["width" := Int(parseInt(comps[i])), "height" := Int(NaN)]
  {
    FirstPositional(comps, i);
    var rest := comps[i + 1..];
    assert forall k :: 0 <= k < |rest| ==> rest[k] == comps[i + 1 + k];
    NoPositional(rest);
  }

  /** With no component without `=`, both sizes are undefined. */
  lemma InitialNoDims(parseInt: string -> Num, comps: seq<string>)
    requires forall k :: 0 <= k < |comps| ==> Keyed(comps[k])
    ensures Initial(parseInt, comps) == map["width" := Int(NaN), "height" := Int(NaN)]
  {
    NoPositional(comps);
  }

  /** A string with `=` splits into at least two parts. */
  lemma SplitKeyed(c: string)
    requires Keyed(c)
    ensures |Strings.Split(c, '=')| >= 2
  {
  }

  /** The key of a keyed component: the text before its first `=`, trimmed. */
  function KeyOf(c: string): string {
    Strings.Trim(Strings.Split(c, '=')[0])
  }

  /** The value of a keyed component: the text between its first and second `=`. */
  function ValueOf(c: string): string
    requires Keyed(c)
  {
    SplitKeyed(c);
    Strings.Split(c, '=')[1]
  }

  /** `key=value`, followed by nothing or by another `=`, has that key (trimmed) and value. */
  lemma KeyAndValue(key: string, value: string, tail: string)
    requires '=' !in key && '=' !in value
    requires tail == "" || tail[0] == '='
    ensures Keyed(key + "=" + value + tail)
    ensures KeyOf(key + "=" + value + tail) == Strings.Trim(key)
    ensures ValueOf(key + "=" + value + tail) == value
  {
    var c := key + "=" + value + tail;
    assert c[|key|] == '=' && c[..|key|] == key;
    assert Strings.IndexOf(c, '=') == Some(|key|);
    var rest := c[|key| + 1..];
    assert rest == value + tail;
    assert Strings.Split(c, '=') == [key] + Strings.Split(rest, '=');
    if tail == "" {
      assert rest == value;
      assert Strings.IndexOf(rest, '=') == None;
      assert Strings.Split(rest, '=') == [value];
    } else {
      assert rest[|value|] == '=' && rest[..|value|] == value;
      assert Strings.IndexOf(rest, '=') == Some(|value|);
      assert Strings.Split(rest, '=')[0] == value;
    }
  }

  /** The message for a key without a parser. */
  function UnknownKey(key: string): string {
    "Unknown viewport configuration key " + key
  }

  /** One keyed component: set the field with its parser, or record an error and leave the viewport alone. */
  function ApplyComponent(parseInt: string -> Num, v: Viewport, errors: seq<string>, c: string): (Viewport, seq<string>)
    requires Keyed(c)
  {
    var key := KeyOf(c);
    if !IsKey(key) then (v, errors + [UnknownKey(key)])
    else (v[key := ParseField(parseInt, key, ValueOf(c))], errors)
  }

  /** The keyed components applied in order. */
  function ApplyAll(parseInt: string -> Num, v: Viewport, errors: seq<string>, keyed: seq<string>): (r: (Viewport, seq<string>))
    requires forall i :: 0 <= i < |keyed| ==> Keyed(keyed[i])
    ensures r.0.Keys == v.Keys + KnownKeys(keyed)
    decreases |keyed|
  {
    if keyed == [] then (v, errors)
    else
      var prev := ApplyAll(parseInt, v, errors, keyed[..|keyed| - 1]);
      ApplyComponent(parseInt, prev.0, prev.1, keyed[|keyed| - 1])
  }

  /** The keys of the components that have a parser. */
  function KnownKeys(keyed: seq<string>): (r: set<string>)
    requires forall i :: 0 <= i < |keyed| ==> Keyed(keyed[i])
    ensures forall k :: k in r ==> IsKey(k)
    decreases |keyed|
  {
    if keyed == [] then {}
    else
      var key := KeyOf(keyed[|keyed| - 1]);
      KnownKeys(keyed[..|keyed| - 1]) + (if IsKey(key) then {key} else {})
  }

  /** The last component, when its key has a parser, contributes that key. */
  lemma KnownKeysLast(keyed: seq<string>)
    requires keyed != [] && forall k :: 0 <= k < |keyed| ==> Keyed(keyed[k])
    requires IsKey(KeyOf(keyed[|keyed| - 1]))
    ensures KeyOf(keyed[|keyed| - 1]) in KnownKeys(keyed)
  {
  }

  /** Dropping the last component keeps the keys of the others. */
  lemma KnownKeysInit(keyed: seq<string>)
    requires keyed != [] && forall k :: 0 <= k < |keyed| ==> Keyed(keyed[k])
    ensures KnownKeys(keyed[..|keyed| - 1]) <= KnownKeys(keyed)
  {
  }

  /** Every component whose key has a parser contributes that key. */
  lemma {:induction false} KnownKeysCover(keyed: seq<string>, i: nat)
    requires forall k :: 0 <= k < |keyed| ==> Keyed(keyed[k])
    requires i < |keyed| && IsKey(KeyOf(keyed[i]))
    ensures KeyOf(keyed[i]) in KnownKeys(keyed)
    decreases |keyed|
  {
    if i == |keyed| - 1 {
      KnownKeysLast(keyed);
    } else {
      var init := keyed[..|keyed| - 1];
      assert init[i] == keyed[i];
      KnownKeysCover(init, i);
      KnownKeysInit(keyed);
    }
  }

  /** Every key collected is the key of some component. */
  lemma {:induction false} KnownKeysFrom(keyed: seq<string>, key: string)
    requires forall k :: 0 <= k < |keyed| ==> Keyed(keyed[k])
    requires key in KnownKeys(keyed)
    ensures exists i :: 0 <= i < |keyed| && KeyOf(keyed[i]) == key
    decreases |keyed|
  {
    var init := keyed[..|keyed| - 1];
    if key in KnownKeys(init) {
      KnownKeysFrom(init, key);
      var i :| 0 <= i < |init| && KeyOf(init[i]) == key;
      assert init[i] == keyed[i];
    } else {
      assert KeyOf(keyed[|keyed| - 1]) == key;
    }
  }

  /** The components up to `i` are the components up to `i - 1`, then component `i - 1`. */
  lemma ApplyAllStep(parseInt: string -> Num, v: Viewport, errors: seq<string>, keyed: seq<string>, i: nat)
    requires forall k :: 0 <= k < |keyed| ==> Keyed(keyed[k])
    requires i < |keyed|
    ensures var prev := ApplyAll(parseInt, v, errors, keyed[..i]);
      ApplyAll(parseInt, v, errors, keyed[..i + 1]) == ApplyComponent(parseInt, prev.0, prev.1, keyed[i])
  {
    assert keyed[..i + 1][..i] == keyed[..i];
  }

  /** A component whose key has no parser leaves the viewport as it is. */
  lemma UnknownKeyUnchanged(parseInt: string -> Num, v: Viewport, errors: seq<string>, c: string)
    requires Keyed(c) && !IsKey(KeyOf(c))
    ensures ApplyComponent(parseInt, v, errors, c).0 == v
  {
  }

  /** A component with another key leaves a field alone. */
  lemma ComponentKeeps(parseInt: string -> Num, v: Viewport, errors: seq<string>, c: string, key: string)
    requires Keyed(c) && KeyOf(c) != key && key in v
    ensures var r := ApplyComponent(parseInt, v, errors, c).0;
      key in r && r[key] == v[key]
  {
  }

  /** A component with a known key sets that field with its parser. */
  lemma ComponentSets(parseInt: string -> Num, v: Viewport, errors: seq<string>, c: string)
    requires Keyed(c) && IsKey(KeyOf(c))
    ensures var r := ApplyComponent(parseInt, v, errors, c).0;
      KeyOf(c) in r && r[KeyOf(c)] == ParseField(parseInt, KeyOf(c), ValueOf(c))
  {
  }

  /** The errors of the unknown keys, in order. */
  function UnknownKeys(keyed: seq<string>): (r: seq<string>)
    decreases |keyed|
  {
    if keyed == [] then []
    else
      var key := KeyOf(keyed[|keyed| - 1]);
      UnknownKeys(keyed[..|keyed| - 1]) + (if IsKey(key) then [] else [UnknownKey(key)])
  }

  /** Each unknown key adds its message, in order, and nothing else is added. */
  lemma {:induction false} ErrorsAreUnknownKeys(parseInt: string -> Num, v: Viewport, errors: seq<string>, keyed: seq<string>)
    requires forall i :: 0 <= i < |keyed| ==> Keyed(keyed[i])
    ensures ApplyAll(parseInt, v, errors, keyed).1 == errors + UnknownKeys(keyed)
    decreases |keyed|
  {
    if keyed != [] {
      ErrorsAreUnknownKeys(parseInt, v, errors, keyed[..|keyed| - 1]);
    }
  }

  /** A field that no component names keeps its positional value. */
  lemma {:induction false} UnnamedKeyKept(parseInt: string -> Num, v: Viewport, errors: seq<string>, keyed: seq<string>, key: string)
    requires forall i :: 0 <= i < |keyed| ==> Keyed(keyed[i])
    requires forall i :: 0 <= i < |keyed| ==> KeyOf(keyed[i]) != key
    requires key in v
    ensures var r := ApplyAll(parseInt, v, errors, keyed).0;
      key in r && r[key] == v[key]
    decreases |keyed|
  {
    if keyed != [] {
      UnnamedKeyKept(parseInt, v, errors, keyed[..|keyed| - 1], key);
    }
  }

  /**
   * The last component `keyed[j]` with a known key decides that field, so
   * `width=` and `height=` override the positional sizes.
   */
  lemma {:induction false} LastKeyWins(parseInt: string -> Num, v: Viewport, errors: seq<string>, keyed: seq<string>, key: string, j: nat)
    requires forall i :: 0 <= i < |keyed| ==> Keyed(keyed[i])
    requires IsKey(key) && j < |keyed| && KeyOf(keyed[j]) == key
    requires forall i :: j < i < |keyed| ==> KeyOf(keyed[i]) != key
    ensures var r := ApplyAll(parseInt, v, errors, keyed).0;
      key in r && r[key] == ParseField(parseInt, key, ValueOf(keyed[j]))
    decreases |keyed|
  {
    var init, last := keyed[..|keyed| - 1], keyed[|keyed| - 1];
    var prev := ApplyAll(parseInt, v, errors, init);
    assert ApplyAll(parseInt, v, errors, keyed) == ApplyComponent(parseInt, prev.0, prev.1, last);
    if j < |keyed| - 1 {
      assert init[j] == keyed[j];
      LastKeyWins(parseInt, v, errors, init, key, j);
      ComponentKeeps(parseInt, prev.0, prev.1, last, key);
    } else {
      ComponentSets(parseInt, prev.0, prev.1, last);
    }
  }

  /** The collected errors. */
  class Options {
    /** `errors`. */
    var errors: seq<string>

    constructor ()
      ensures errors == []
    {
      errors := [];
    }

    /** The `--viewport` parser applied to `str`. */
    method ParseViewport(parseInt: string -> Num, str: string) returns (viewport: Viewport)
      modifies this
      ensures var comps := Strings.Split(str, ',');
        (viewport, errors) == ApplyAll(parseInt, Initial(parseInt, comps), old(errors), KeyedComponents(comps))
    {
      var viewportComponents := Strings.Split(str, ',');
      viewport := Initial(parseInt, viewportComponents);
      var keyed := KeyedComponents(viewportComponents);
      for i := 0 to |keyed|
        invariant (viewport, errors) == ApplyAll(parseInt, Initial(parseInt, viewportComponents), old(errors), keyed[..i])
      {
        ApplyAllStep(parseInt, Initial(parseInt, viewportComponents), old(errors), keyed, i);
        var c := keyed[i];
        var key := KeyOf(c);
        if !IsKey(key) {
          errors := errors + [UnknownKey(key)];
        } else {
          viewport := viewport[key := ParseField(parseInt, key, ValueOf(c))];
        }
      }
      assert keyed[..|keyed|] == keyed;
    }
  }

  /** The errors printed once the options are parsed: all of them, unless quiet. */
  function PrintedErrors(errors: seq<string>, quiet: bool): (r: seq<string>)
    ensures quiet ==> r == []
    ensures !quiet ==> r == errors
  {
    if |errors| > 0 && !quiet then errors else []
  }
}

=== FILE: clock_monotonic.dfy ===
/**
 * Time only moves forward on the virtual clock of lib/overwrite-time.js
 * as long as no callback asks for a negative delay: `_processUntilTime`
 * never sets the clock back when its target is ahead, every block it runs
 * lies between the old and the new reading, and the page's callbacks are
 * called in chronological order.
 */
module ClockMonotonic {
  import opened Wrappers
  import opened PendingBlocks
  import opened OverwriteTime
  import opened ClockProperties

  /** A timer call that asks for no negative delay. */
  predicate ForwardAction(a: Action) {
    match a
    case SetTimeout(_, d) => NonNegative(d)
    case SetInterval(_, d) => NonNegative(d)
    case _ => true
  }

  /** No callback of the page asks for a negative delay, and frames do not last a negative time. */
  ghost predicate Forward(env: Env) {
    env.animationFrameDuration >= 0.0 && forall t: Tag, a :: a in env.script(t) ==> ForwardAction(a)
  }

  /** The calls of the log are in order of virtual time. */
  ghost predicate Chronological(log: seq<Fired>) {
    forall i, j :: 0 <= i < j < |log| ==> log[i].time <= log[j].time
  }

  /**
   * Nothing pending lies in the past, no interval has a negative delay,
   * every call so far happened in order and at or before the current time,
   * and the frame time is not ahead of the clock.
   */
  ghost predicate Monotone(c: Clock) {
    && (forall b :: b in c.pending ==> b.time >= c.virtualTime)
    && (forall k :: k in c.intervals ==> NonNegative(c.intervals[k].delay))
    && Chronological(c.fired)
    && (forall i :: 0 <= i < |c.fired| ==> c.fired[i].time <= c.virtualTime)
    && c.frameTime <= c.virtualTime
  }

  /** `log` starts with `before`. */
  predicate Extends(before: seq<Fired>, log: seq<Fired>) {
    |before| <= |log| && log[..|before|] == before
  }

  /** Logging a call at the current time keeps the log in order. */
  lemma LogNow(c: Clock, f: Fired)
    requires Monotone(c) && f.time == c.virtualTime
    ensures Monotone(c.(fired := c.fired + [f]))
    ensures Extends(c.fired, c.fired + [f])
  {
    assert (c.fired + [f])[..|c.fired|] == c.fired;
  }

  lemma ApplyActionForward(env: Env, c: Clock, a: Action)
    requires Monotone(c) && env.animationFrameDuration >= 0.0 && ForwardAction(a)
    ensures Monotone(ApplyAction(env, c, a))
  {
    match a
    case Clear(id) => ClearTimerKeeps(c, id);
    case _ =>
  }

  /** The timer calls of a callback that asks for no negative delay keep the clock monotone. */
  lemma {:induction false} ApplyActionsForward(env: Env, c: Clock, acts: seq<Action>)
    requires Monotone(c) && env.animationFrameDuration >= 0.0
    requires forall a :: a in acts ==> ForwardAction(a)
    ensures Monotone(ApplyActions(env, c, acts))
    decreases |acts|
  {
    if acts != [] {
      ApplyActionForward(env, c, acts[0]);
      ApplyActionsForward(env, ApplyAction(env, c, acts[0]), acts[1..]);
    }
  }

  /** Running a callback keeps the clock monotone and only appends to the log. */
  lemma FireCallbackForward(env: Env, c: Clock, fn: Callback)
    requires Forward(env) && Monotone(c)
    ensures Monotone(FireCallback(env, c, fn)) && Extends(c.fired, FireCallback(env, c, fn).fired)
  {
    match fn
    case UserTimeout(t) =>
      var f := Fired(fn, c.virtualTime, None);
      LogNow(c, f);
      ApplyActionsForward(env, c.(fired := c.fired + [f]), env.script(t));
    case AnimFrame(t) =>
      var f := Fired(fn, c.virtualTime, if env.passesFrameTime then Some(c.frameTime) else None);
      LogNow(c, f);
      ApplyActionsForward(env, c.(fired := c.fired + [f]), env.script(t));
    case FrameUpdater =>
    case IntervalLink(j) =>
      if j in c.intervals {
        var f := Fired(fn, c.virtualTime, None);
        LogNow(c, f);
        ApplyActionsForward(env, c.(fired := c.fired + [f]), env.script(c.intervals[j].tag));
      }
  }

  /**
   * `_processNextBlock` keeps the clock monotone: the clock moves forward
   * to the time of the block it runs, and the log is only appended to.
   */
  lemma NextBlockForward(env: Env, c: Clock)
    requires Valid(c) && Forward(env) && Monotone(c)
    ensures Monotone(NextBlock(env, c))
    ensures NextBlock(env, c).virtualTime >= c.virtualTime
    ensures Extends(c.fired, NextBlock(env, c).fired)
  {
    if |c.pending| > 0 {
      var s := SortBlocks(c.pending);
      var b := s[0];
      SortedHeadIsLeast(c.pending);
      SortBlocksPermutes(c.pending);
      var c1 := c.(pending := s[1..], virtualTime := b.time);
      assert Monotone(c1) by {
        forall x | x in s[1..] ensures x.time >= b.time {
          assert x in s;
          assert Before(b, x);
        }
      }
      FireCallbackForward(env, c1, b.fn);
      assert NextBlock(env, c) == FireCallback(env, c1, b.fn);
    }
  }

  /** A loop body that keeps the clock monotone and stays within the target while a block is due. */
  ghost predicate StepForward(step: Clock -> Clock, ms: real) {
    forall x {:trigger step(x)} ::
      Valid(x) && Sorted(x.pending) && Monotone(x) && |x.pending| > 0 && x.pending[0].time <= x.startTime + ms ==>
        && Monotone(step(x)) && Extends(x.fired, step(x).fired)
        && x.virtualTime <= step(x).virtualTime <= x.startTime + ms
  }

  /** One turn of `_processUntilTime` while a block is due: forward, and not past that block. */
  lemma TurnForward(env: Env, ms: real, x: Clock)
    requires Forward(env) && Valid(x) && Sorted(x.pending) && Monotone(x)
    requires |x.pending| > 0 && x.pending[0].time <= x.startTime + ms
    ensures var y := SortPending(NextBlock(env, x));
      Monotone(y) && Extends(x.fired, y.fired) && x.virtualTime <= y.virtualTime <= x.startTime + ms
  {
    NextBlockForward(env, x);
    NextBlockLeast(env, x, 0);
    SortPendingKeeps(NextBlock(env, x));
    assert x.pending[0] in x.pending;
  }

  /** The body of `_processUntilTime` moves the clock forward, never past a due block. */
  lemma StepIsForward(env: Env, ms: real)
    requires Forward(env)
    ensures StepForward(Step(env), ms)
  {
    forall x | Valid(x) && Sorted(x.pending) && Monotone(x) && |x.pending| > 0 && x.pending[0].time <= x.startTime + ms
      ensures Monotone(Step(env)(x)) && Extends(x.fired, Step(env)(x).fired)
      ensures x.virtualTime <= Step(env)(x).virtualTime <= x.startTime + ms
    {
      TurnForward(env, ms, x);
      assert Step(env)(x) == SortPending(NextBlock(env, x));
    }
  }

  lemma ExtendsTrans(a: seq<Fired>, b: seq<Fired>, c: seq<Fired>)
    requires Extends(a, b) && Extends(b, c)
    ensures Extends(a, c)
  {
    assert c[..|a|] == c[..|b|][..|a|];
  }

  lemma {:induction false} DrainForward(step: Clock -> Clock, c: Clock, ms: real, fuel: nat)
    requires StepKeeps(step) && StepForward(step, ms)
    requires Valid(c) && Sorted(c.pending) && Monotone(c) && c.virtualTime <= c.startTime + ms
    ensures var r := Drain(step, c, ms, fuel).0;
      Monotone(r) && Extends(c.fired, r.fired) && c.virtualTime <= r.virtualTime <= c.startTime + ms
    decreases fuel
  {
    if |c.pending| > 0 && c.pending[0].time <= c.startTime + ms {
      if fuel > 0 {
        DrainForward(step, step(c), ms, fuel - 1);
        ExtendsTrans(c.fired, step(c).fired, Drain(step, step(c), ms, fuel - 1).0.fired);
      } else {
        assert c.fired[..|c.fired|] == c.fired;
      }
    } else {
      if |c.pending| > 0 {
        SortedHeadLeast(c.pending);
      }
      assert c.fired[..|c.fired|] == c.fired;
    }
  }

  /**
   * `_processUntilTime(ms)` with a target not behind the clock: the clock
   * moves forward and not past the target, the calls made are appended to
   * the log in chronological order, and the clock stays monotone.
   */
  lemma UntilTimeForward(env: Env, c: Clock, ms: real, fuel: nat)
    requires Valid(c) && Forward(env) && Monotone(c) && c.virtualTime <= c.startTime + ms
    ensures var r := UntilTime(env, c, ms, fuel).0;
      && Monotone(r) && Extends(c.fired, r.fired)
      && c.virtualTime <= r.virtualTime <= c.startTime + ms
  {
    SortPendingKeeps(c);
    StepKeepsValid(env);
    StepIsForward(env, ms);
    DrainForward(Step(env), SortPending(c), ms, fuel);
  }

  /** A freshly installed clock is monotone. */
  lemma InstallForward(env: Env, t: real)
    requires Forward(env)
    ensures Monotone(Install(env, t))
  {
  }
}

=== FILE: clock_properties.dfy ===
/**
 * Properties of the virtual clock of lib/overwrite-time.js, proved about
 * the functions of module OverwriteTime: ids are fresh and increasing,
 * `_processNextBlock` runs the least block, `_processUntilTime` leaves
 * the clock exactly at its target with nothing due, the clock never runs
 * backwards when no delay is negative, and a cleared interval never fires
 * again.
 */
module ClockProperties {
  import opened Wrappers
  import opened PendingBlocks
  import opened OverwriteTime

  /** Every id in use was handed out already, and no interval id is ever the id of a link. */
  ghost predicate IdsBelowCount(c: Clock) {
    && (forall b :: b in c.pending ==> b.id < c.idCount)
    && (forall k :: k in c.intervals ==> k < c.idCount && c.intervals[k].lastCallId < c.idCount)
    && (forall k, j :: k in c.intervals && j in c.intervals ==> c.intervals[k].lastCallId != j)
  }

  /** A pending link belongs to a running interval and is the link that interval will clear. */
  ghost predicate LinkTracked(c: Clock, b: Block)
    requires b.fn.IntervalLink?
  {
    var iid := b.fn.intervalId;
    iid in c.intervals && c.intervals[iid].running && c.intervals[iid].lastCallId == b.id
  }

  ghost predicate LinksTracked(c: Clock) {
    forall b :: b in c.pending && b.fn.IntervalLink? ==> LinkTracked(c, b)
  }

  /** The invariant every reachable clock state keeps. */
  ghost predicate Valid(c: Clock) {
    IdsBelowCount(c) && DistinctIds(c.pending) && LinksTracked(c)
  }

  /** No link of interval `iid` is pending. */
  ghost predicate NoLink(c: Clock, iid: nat) {
    forall b :: b in c.pending ==> b.fn != IntervalLink(iid)
  }

  /** Interval `iid` exists and has been cleared. */
  ghost predicate Stopped(c: Clock, iid: nat) {
    iid in c.intervals && !c.intervals[iid].running
  }

  lemma AppendFreshDistinct(s: seq<Block>, b: Block)
    requires DistinctIds(s) && forall x :: x in s ==> x.id < b.id
    ensures DistinctIds(s + [b])
  {
    forall i, j | 0 <= i < j < |s| + 1 ensures (s + [b])[i].id != (s + [b])[j].id {
      if j == |s| {
        assert (s + [b])[i] == s[i];
        assert s[i] in s;
      }
    }
  }

  lemma TailDistinct(s: seq<Block>)
    requires DistinctIds(s) && |s| > 0
    ensures DistinctIds(s[1..])
    ensures forall x :: x in s[1..] ==> x.id != s[0].id
  {
    forall x | x in s[1..] ensures x.id != s[0].id {
      var k :| 0 <= k < |s[1..]| && s[1..][k] == x;
      assert s[k + 1] == x;
    }
  }

  /** The installed clock: virtual time at the start, and (in lib/overwrite-time.js) the frame updater queued under id 1. */
  lemma InstallState(env: Env, t: real)
    ensures Valid(Install(env, t))
    ensures Install(env, t).virtualTime == t && Install(env, t).startTime == t
    ensures Install(env, t).fired == [] && Install(env, t).intervals == map[]
    ensures env.passesFrameTime ==>
      && Install(env, t).pending == [Block(t + NormalizeDelay(Some(env.animationFrameDuration)), 1, FrameUpdater)]
      && Install(env, t).idCount == 2 && Install(env, t).frameTime == t
    ensures !env.passesFrameTime ==> Install(env, t).pending == [] && Install(env, t).idCount == 1
  {
  }

  /**
   * `setTimeout` (and `requestAnimationFrame`, which is a timeout) returns
   * the current counter, which no pending block and no interval uses, queues
   * the block at the current virtual time plus the normalized delay, and
   * advances the counter by exactly one.
   */
  lemma EnqueueFresh(c: Clock, fn: Callback, delay: Option<real>)
    requires Valid(c) && !fn.IntervalLink?
    ensures var (r, id) := Enqueue(c, fn, delay);
      && id == c.idCount && id !in Ids(c.pending) && id !in c.intervals
      && r.idCount == id + 1
      && r.pending == c.pending + [Block(c.virtualTime + NormalizeDelay(delay), id, fn)]
      && r.virtualTime == c.virtualTime && r.intervals == c.intervals && r.fired == c.fired
      && Valid(r)
  {
    var (r, id) := Enqueue(c, fn, delay);
    AppendFreshDistinct(c.pending, Block(c.virtualTime + NormalizeDelay(delay), id, fn));
  }

  /**
   * `setInterval` returns the current counter and gives its first link the
   * next one, so the interval id differs from the link id; the interval is
   * running and tracks that link.
   */
  lemma AddIntervalIds(c: Clock, tag: Tag, delay: Option<real>)
    requires Valid(c)
    ensures var (r, id) := AddInterval(c, tag, delay);
      && id == c.idCount && id !in c.intervals && r.idCount == id + 2
      && r.intervals == c.intervals[id := Interval(tag, delay, true, id + 1)]
      && r.pending == c.pending + [Block(c.virtualTime + NormalizeDelay(delay), id + 1, IntervalLink(id))]
      && Valid(r)
  {
    var (r, id) := AddInterval(c, tag, delay);
    var link := Block(c.virtualTime + NormalizeDelay(delay), id + 1, IntervalLink(id));
    AppendFreshDistinct(c.pending, link);
    forall b | b in r.pending && b.fn.IntervalLink? ensures LinkTracked(r, b) {
      if b != link {
        assert b in c.pending && LinkTracked(c, b);
      }
    }
  }

  /**
   * `p` is the queue `_clearTimeout(id)` leaves: the old queue in its old
   * order without the blocks of `id` and, when `id` names an interval,
   * without those of its pending link; so exactly the other blocks remain.
   */
  ghost predicate ClearedPending(c: Clock, id: nat, p: seq<Block>) {
    && (id !in c.intervals ==> p == WithoutId(c.pending, id))
    && (id in c.intervals ==> p == WithoutId(WithoutId(c.pending, c.intervals[id].lastCallId), id))
    && (id in c.intervals ==> forall b :: b in p <==>
          b in c.pending && b.id != id && b.id != c.intervals[id].lastCallId)
  }

  lemma ClearedPendingHolds(c: Clock, id: nat)
    ensures ClearedPending(c, id, ClearTimer(c, id).pending)
  {
    if id in c.intervals {
      var p1 := WithoutId(c.pending, c.intervals[id].lastCallId);
      WithoutIdMembers(c.pending, c.intervals[id].lastCallId);
      WithoutIdMembers(p1, id);
    }
  }

  /**
   * `_clearTimeout(id)` only removes blocks: what stays, in its old order,
   * is every block whose id is neither `id` nor, when `id` names an
   * interval, that of its pending link. An unknown id changes nothing; the
   * state stays valid.
   */
  lemma ClearTimerRemoves(c: Clock, id: nat)
    requires Valid(c)
    ensures var r := ClearTimer(c, id);
      && Valid(r)
      && (forall b :: b in r.pending ==> b in c.pending && b.id != id)
      && (id !in c.intervals ==> forall b :: b in c.pending && b.id != id ==> b in r.pending)
      && ClearedPending(c, id, r.pending)
      && (id !in c.intervals && id !in Ids(c.pending) ==> r == c)
      && r.idCount == c.idCount && r.virtualTime == c.virtualTime && r.fired == c.fired
      && r.intervals.Keys == c.intervals.Keys
  {
    var r := ClearTimer(c, id);
    ClearTimerKeeps(c, id);
    ClearedPendingHolds(c, id);
    if id in c.intervals {
      var iv := c.intervals[id];
      var p1 := WithoutId(c.pending, iv.lastCallId);
      WithoutIdDistinct(c.pending, iv.lastCallId);
      WithoutIdDistinct(p1, id);
      forall b | b in r.pending && b.fn.IntervalLink? ensures LinkTracked(r, b) {
        assert b in c.pending && LinkTracked(c, b);
      }
    } else {
      WithoutIdDistinct(c.pending, id);
      WithoutIdMembers(c.pending, id);
    }
  }

  /**
   * What `_clearTimeout` keeps queued was queued before, and none of it has
   * the cleared id nor, for an interval, the id of its last link.
   */
  lemma ClearTimerKeeps(c: Clock, id: nat)
    ensures forall b :: b in ClearTimer(c, id).pending ==> b in c.pending && b.id != id
    ensures id in c.intervals ==> forall b :: b in ClearTimer(c, id).pending ==> b.id != c.intervals[id].lastCallId
  {
    if id in c.intervals {
      var p1 := WithoutId(c.pending, c.intervals[id].lastCallId);
      WithoutIdMembers(c.pending, c.intervals[id].lastCallId);
      WithoutIdMembers(p1, id);
    } else {
      WithoutIdMembers(c.pending, id);
    }
  }

  /**
   * Clearing an interval by its id (clearInterval, clearTimeout or
   * cancelAnimationFrame) stops it and leaves no link of it pending.
   */
  lemma ClearStopsInterval(c: Clock, iid: nat)
    requires Valid(c) && iid in c.intervals
    ensures Stopped(ClearTimer(c, iid), iid) && NoLink(ClearTimer(c, iid), iid)
  {
    var r := ClearTimer(c, iid);
    ClearTimerKeeps(c, iid);
    forall b | b in r.pending ensures b.fn != IntervalLink(iid) {
      assert b in c.pending;
      if b.fn.IntervalLink? {
        assert LinkTracked(c, b);
      }
    }
  }

  /** One timer call keeps the invariant, keeps links of existing intervals away, and never restarts an interval. */
  lemma ApplyActionKeeps(env: Env, c: Clock, a: Action, iid: nat)
    requires Valid(c)
    ensures var r := ApplyAction(env, c, a);
      && Valid(r)
      && (iid in c.intervals && NoLink(c, iid) ==> NoLink(r, iid))
      && (Stopped(c, iid) ==> Stopped(r, iid))
      && (a == Clear(iid) && iid in c.intervals ==> Stopped(r, iid))
  {
    match a
    case SetTimeout(t, d) => EnqueueFresh(c, UserTimeout(t), d);
    case SetInterval(t, d) => AddIntervalIds(c, t, d);
    case RequestFrame(t) => EnqueueFresh(c, AnimFrame(t), Some(env.animationFrameDuration));
    case Clear(id) =>
      ClearTimerRemoves(c, id);
      if id == iid && iid in c.intervals { ClearStopsInterval(c, iid); }
  }

  /** Every block the timer calls of a callback leave queued was queued before or carries a new id. */
  lemma {:induction false} ApplyActionsFresh(env: Env, c: Clock, acts: seq<Action>)
    ensures forall b :: b in ApplyActions(env, c, acts).pending ==> b in c.pending || b.id >= c.idCount
    decreases |acts|
  {
    if acts != [] {
      var c1 := ApplyAction(env, c, acts[0]);
      ApplyActionsFresh(env, c1, acts[1..]);
      match acts[0]
      case Clear(id) => ClearTimerKeeps(c, id);
      case _ =>
    }
  }

  /** A callback's timer calls keep the invariant; a `Clear(iid)` among them leaves the interval stopped. */
  lemma {:induction false} ApplyActionsKeep(env: Env, c: Clock, acts: seq<Action>, iid: nat)
    requires Valid(c)
    ensures var r := ApplyActions(env, c, acts);
      && Valid(r)
      && (iid in c.intervals && NoLink(c, iid) ==> NoLink(r, iid))
      && (Stopped(c, iid) ==> Stopped(r, iid))
      && (Clear(iid) in acts && iid in c.intervals ==> Stopped(r, iid))
    decreases |acts|
  {
    if acts != [] {
      var c1 := ApplyAction(env, c, acts[0]);
      ApplyActionKeeps(env, c, acts[0], iid);
      ApplyActionsKeep(env, c1, acts[1..], iid);
      if Clear(iid) in acts && iid in c.intervals && acts[0] != Clear(iid) {
        assert Clear(iid) in acts[1..];
      }
    }
  }

  /** Running a callback: what it may change, and that it keeps the invariant. */
  lemma FireCallbackKeeps(env: Env, c: Clock, fn: Callback, iid: nat)
    requires Valid(c)
    requires fn.IntervalLink? ==> NoLink(c, fn.intervalId)
    ensures var r := FireCallback(env, c, fn);
      && Valid(r)
      && r.virtualTime == c.virtualTime && r.startTime == c.startTime && r.idCount >= c.idCount
      && (forall b :: b in r.pending ==> b in c.pending || b.id >= c.idCount)
      && (r.fired == c.fired || (|r.fired| == |c.fired| + 1 && r.fired[..|c.fired|] == c.fired && r.fired[|c.fired|].fn == fn))
      && (fn != IntervalLink(iid) && Stopped(c, iid) ==> Stopped(r, iid))
      && (fn != FrameUpdater ==> r.frameTime == c.frameTime)
      && (fn == FrameUpdater ==> r.frameTime == c.virtualTime)
  {
    match fn
    case UserTimeout(t) =>
      var c0 := c.(fired := c.fired + [Fired(fn, c.virtualTime, None)]);
      ApplyActionsKeep(env, c0, env.script(t), iid);
      ApplyActionsFresh(env, c0, env.script(t));
      assert (c.fired + [Fired(fn, c.virtualTime, None)])[..|c.fired|] == c.fired;
    case AnimFrame(t) =>
      var arg := if env.passesFrameTime then Some(c.frameTime) else None;
      var c0 := c.(fired := c.fired + [Fired(fn, c.virtualTime, arg)]);
      ApplyActionsKeep(env, c0, env.script(t), iid);
      ApplyActionsFresh(env, c0, env.script(t));
      assert (c.fired + [Fired(fn, c.virtualTime, arg)])[..|c.fired|] == c.fired;
    case FrameUpdater =>
      EnqueueFresh(c, FrameUpdater, Some(env.animationFrameDuration));
    case IntervalLink(j) =>
      if j in c.intervals {
        var c0 := c.(fired := c.fired + [Fired(fn, c.virtualTime, None)]);
        assert (c.fired + [Fired(fn, c.virtualTime, None)])[..|c.fired|] == c.fired;
        var c1 := ApplyActions(env, c0, env.script(c.intervals[j].tag));
        ApplyActionsKeep(env, c0, env.script(c.intervals[j].tag), iid);
        ApplyActionsKeep(env, c0, env.script(c.intervals[j].tag), j);
        ApplyActionsFresh(env, c0, env.script(c.intervals[j].tag));
        if j in c1.intervals && c1.intervals[j].running {
          RelinkKeeps(c1, j, iid);
        }
      }
  }

  /** Queuing the next link of a running interval with no link pending keeps the invariant. */
  lemma RelinkKeeps(c: Clock, j: nat, iid: nat)
    requires Valid(c) && j in c.intervals && c.intervals[j].running && NoLink(c, j)
    ensures var r := Relink(c, j);
      && Valid(r) && r.virtualTime == c.virtualTime && r.startTime == c.startTime
      && r.idCount == c.idCount + 1 && r.fired == c.fired && r.frameTime == c.frameTime
      && (forall b :: b in r.pending ==> b in c.pending || b.id == c.idCount)
      && (j != iid && Stopped(c, iid) ==> Stopped(r, iid))
  {
    var r := Relink(c, j);
    var nb := Block(c.virtualTime + NormalizeDelay(c.intervals[j].delay), c.idCount, IntervalLink(j));
    assert r.pending == c.pending + [nb];
    AppendFreshDistinct(c.pending, nb);
    forall b | b in r.pending && b.fn.IntervalLink? ensures LinkTracked(r, b) {
      if b != nb {
        assert b in c.pending && LinkTracked(c, b);
      }
    }
  }

  /** The least pending block in `(time, id)` order, which `_processNextBlock` runs. */
  function Least(pending: seq<Block>): Block
    requires |pending| > 0
  {
    SortBlocks(pending)[0]
  }

  /**
   * `_processNextBlock` does nothing on an empty queue. Otherwise it takes
   * off the least block in `(time, id)` order, moves the clock to its time
   * and runs it: that block is gone from the queue afterwards, and ids only
   * grow.
   */
  lemma NextBlockLeast(env: Env, c: Clock, iid: nat)
    requires Valid(c)
    ensures |c.pending| == 0 ==> NextBlock(env, c) == c
    ensures |c.pending| > 0 ==>
      var r := NextBlock(env, c);
      var b := Least(c.pending);
      && b in c.pending && (forall x :: x in c.pending ==> Before(b, x))
      && r.virtualTime == b.time && r.startTime == c.startTime
      && b.id !in Ids(r.pending)
      && (Stopped(c, iid) ==> b.fn != IntervalLink(iid))
      && r.idCount >= c.idCount
      && (forall x :: x in r.pending ==> x in c.pending || x.id >= c.idCount)
      && (r.fired == c.fired || (|r.fired| == |c.fired| + 1 && r.fired[..|c.fired|] == c.fired && r.fired[|c.fired|].fn == b.fn))
      && (b.fn == FrameUpdater ==> r.frameTime == b.time)
      && (b.fn != FrameUpdater ==> r.frameTime == c.frameTime)
    ensures Valid(NextBlock(env, c))
    ensures Stopped(c, iid) ==> Stopped(NextBlock(env, c), iid)
  {
    if |c.pending| > 0 {
      var s := SortBlocks(c.pending);
      var b := s[0];
      SortedHeadIsLeast(c.pending);
      SortDistinct(c.pending);
      SortBlocksPermutes(c.pending);
      TailDistinct(s);
      var c1 := c.(pending := s[1..], virtualTime := b.time);
      forall x | x in s[1..] ensures x in c.pending {
        assert x in s;
      }
      assert Valid(c1) by {
        forall x | x in c1.pending && x.fn.IntervalLink? ensures LinkTracked(c1, x) {
          assert LinkTracked(c, x);
        }
      }
      if b.fn.IntervalLink? {
        assert LinkTracked(c, b);
        forall x | x in c1.pending ensures x.fn != b.fn {
          if x.fn.IntervalLink? {
            assert LinkTracked(c, x);
          }
        }
      }
      FireCallbackKeeps(env, c1, b.fn, iid);
      var r := NextBlock(env, c);
      assert r == FireCallback(env, c1, b.fn);
      forall x | x in r.pending ensures x.id != b.id {
        if x in c1.pending {
        } else {
          assert b.id < c.idCount;
        }
      }
    }
  }

  /** `_sortPendingBlocks` only reorders the queue, so it keeps the invariant. */
  lemma SortPendingKeeps(c: Clock)
    requires Valid(c)
    ensures Valid(SortPending(c)) && Sorted(SortPending(c).pending)
    ensures forall b :: b in SortPending(c).pending <==> b in c.pending
  {
    var s := SortBlocks(c.pending);
    SortDistinct(c.pending);
    SortBlocksPermutes(c.pending);
    assert LinksTracked(SortPending(c)) by {
      forall x | x in s && x.fn.IntervalLink? ensures LinkTracked(SortPending(c), x) {
        assert LinkTracked(c, x);
      }
    }
  }

  /** `before` is a prefix of `log`, and no entry after it is a call of interval `iid`. */
  ghost predicate SilentSince(before: seq<Fired>, log: seq<Fired>, iid: nat) {
    |before| <= |log| && log[..|before|] == before
    && forall i :: |before| <= i < |log| ==> log[i].fn != IntervalLink(iid)
  }

  lemma SilentTrans(a: seq<Fired>, b: seq<Fired>, c: seq<Fired>, iid: nat)
    requires SilentSince(a, b, iid) && SilentSince(b, c, iid)
    ensures SilentSince(a, c, iid)
  {
    assert c[..|a|] == c[..|b|][..|a|];
  }

  /** A loop body that keeps the invariant and the sorted queue, the start time and the growth of ids. */
  ghost predicate StepKeeps(step: Clock -> Clock) {
    forall x {:trigger step(x)} :: Valid(x) && Sorted(x.pending) ==>
      && Valid(step(x)) && Sorted(step(x).pending)
      && step(x).startTime == x.startTime && step(x).idCount >= x.idCount
  }

  /** A loop body that never calls, nor restarts, the stopped interval `iid`. */
  ghost predicate StepSilent(step: Clock -> Clock, iid: nat) {
    forall x {:trigger step(x)} :: Valid(x) && Stopped(x, iid) ==>
      Stopped(step(x), iid) && SilentSince(x.fired, step(x).fired, iid)
  }

  /** The body of `_processUntilTime` keeps the invariant. */
  lemma StepKeepsValid(env: Env)
    ensures StepKeeps(Step(env))
  {
    forall x | Valid(x) && Sorted(x.pending)
      ensures Valid(Step(env)(x)) && Sorted(Step(env)(x).pending)
      ensures Step(env)(x).startTime == x.startTime && Step(env)(x).idCount >= x.idCount
    {
      NextBlockLeast(env, x, 0);
      SortPendingKeeps(NextBlock(env, x));
    }
  }

  /** The body of `_processUntilTime` never calls a stopped interval. */
  lemma StepKeepsSilent(env: Env, iid: nat)
    ensures StepSilent(Step(env), iid)
  {
    forall x | Valid(x) && Stopped(x, iid)
      ensures Stopped(Step(env)(x), iid) && SilentSince(x.fired, Step(env)(x).fired, iid)
    {
      NextBlockSilent(env, x, iid);
    }
  }

  /**
   * What `_processNextBlock` hands the page: the callback of the least block
   * is called at exactly the block's time; an animation-frame callback gets
   * the frame time (lib/overwrite-time.js) or nothing (the copy in
   * index.js); the frame updater calls nothing of the page and records the
   * block's time as the new frame time.
   */
  lemma NextBlockFired(env: Env, c: Clock)
    requires Valid(c) && |c.pending| > 0
    ensures var b := Least(c.pending); var r := NextBlock(env, c);
      && (b.fn.UserTimeout? || b.fn.IntervalLink? ==> r.fired == c.fired + [Fired(b.fn, b.time, None)])
      && (b.fn.AnimFrame? ==>
            r.fired == c.fired + [Fired(b.fn, b.time, if env.passesFrameTime then Some(c.frameTime) else None)])
      && (b.fn == FrameUpdater ==> r.fired == c.fired && r.frameTime == b.time)
  {
    var b := Least(c.pending);
    SortedHeadIsLeast(c.pending);
    if b.fn.IntervalLink? {
      assert LinkTracked(c, b);
    }
  }

  /** Running the next block never calls, nor restarts, a stopped interval. */
  lemma NextBlockSilent(env: Env, c: Clock, iid: nat)
    requires Valid(c) && Stopped(c, iid)
    ensures Stopped(NextBlock(env, c), iid) && SilentSince(c.fired, NextBlock(env, c).fired, iid)
  {
    NextBlockLeast(env, c, iid);
    var r := NextBlock(env, c);
    if r.fired != c.fired {
      assert r.fired[|c.fired|].fn == Least(c.pending).fn;
    }
  }

  /**
   * The loop of `_processUntilTime`. When it ends (rather than running out of
   * fuel) the clock reads exactly `startTime + ms` and no block is due any
   * more; when it runs out of fuel a block is still due. Along the way the
   * invariant holds, the start time is kept and ids only grow.
   */
  lemma {:induction false} DrainExact(step: Clock -> Clock, c: Clock, ms: real, fuel: nat)
    requires StepKeeps(step) && Valid(c) && Sorted(c.pending)
    ensures var (r, drained) := Drain(step, c, ms, fuel);
      && Valid(r) && r.startTime == c.startTime && r.idCount >= c.idCount
      && (drained ==> r.virtualTime == c.startTime + ms && forall b :: b in r.pending ==> b.time > c.startTime + ms)
      && (!drained ==> |r.pending| > 0 && r.pending[0].time <= c.startTime + ms)
    decreases fuel
  {
    if |c.pending| > 0 && c.pending[0].time <= c.startTime + ms {
      if fuel > 0 {
        DrainExact(step, step(c), ms, fuel - 1);
      }
    } else if |c.pending| > 0 {
      SortedHeadLeast(c.pending);
    }
  }

  /** A stopped interval stays stopped through the loop, and is never called. */
  lemma {:induction false} DrainSilent(step: Clock -> Clock, c: Clock, ms: real, fuel: nat, iid: nat)
    requires StepKeeps(step) && StepSilent(step, iid)
    requires Valid(c) && Sorted(c.pending) && Stopped(c, iid)
    ensures Stopped(Drain(step, c, ms, fuel).0, iid)
    ensures SilentSince(c.fired, Drain(step, c, ms, fuel).0.fired, iid)
    decreases fuel
  {
    if |c.pending| > 0 && c.pending[0].time <= c.startTime + ms && fuel > 0 {
      DrainSilent(step, step(c), ms, fuel - 1, iid);
      SilentTrans(c.fired, step(c).fired, Drain(step, step(c), ms, fuel - 1).0.fired, iid);
    }
  }

  /**
   * `_processUntilTime(ms)`: from any valid clock (it sorts the queue
   * first), when the loop ends the clock reads exactly `startTime + ms`,
   * every block still queued lies strictly later, and a stopped interval
   * stayed stopped and silent.
   */
  lemma UntilTimeExact(env: Env, c: Clock, ms: real, fuel: nat, iid: nat)
    requires Valid(c)
    ensures var (r, drained) := UntilTime(env, c, ms, fuel);
      && Valid(r) && r.startTime == c.startTime && r.idCount >= c.idCount
      && (drained ==> r.virtualTime == c.startTime + ms && forall b :: b in r.pending ==> b.time > c.startTime + ms)
      && (Stopped(c, iid) ==> Stopped(r, iid) && SilentSince(c.fired, r.fired, iid))
  {
    SortPendingKeeps(c);
    StepKeepsValid(env);
    StepKeepsSilent(env, iid);
    DrainExact(Step(env), SortPending(c), ms, fuel);
    if Stopped(c, iid) {
      DrainSilent(Step(env), SortPending(c), ms, fuel, iid);
    }
  }

  /** Fuel is only a bound: once the loop ends, more fuel gives the same result. */
  lemma {:induction false} DrainFuel(step: Clock -> Clock, c: Clock, ms: real, fuel: nat, more: nat)
    requires Drain(step, c, ms, fuel).1 && fuel <= more
    ensures Drain(step, c, ms, more) == Drain(step, c, ms, fuel)
    decreases fuel
  {
    if |c.pending| > 0 && c.pending[0].time <= c.startTime + ms {
      DrainFuel(step, step(c), ms, fuel - 1, more - 1);
    }
  }

  /**
   * An interval whose own callback calls `clearInterval` on it stops the
   * first time it runs: afterwards it is stopped with no link pending, so
   * (lemma DrainExact) it is never called again.
   */
  lemma SelfClearingIntervalStops(env: Env, c: Clock, iid: nat)
    requires Valid(c) && |c.pending| > 0 && Least(c.pending).fn == IntervalLink(iid)
    requires iid in c.intervals && Clear(iid) in env.script(c.intervals[iid].tag)
    ensures Stopped(NextBlock(env, c), iid) && NoLink(NextBlock(env, c), iid)
  {
    var s := SortBlocks(c.pending);
    var b := s[0];
    SortedHeadIsLeast(c.pending);
    SortDistinct(c.pending);
    TailDistinct(s);
    var c1 := c.(pending := s[1..], virtualTime := b.time);
    SortBlocksPermutes(c.pending);
    forall x | x in s[1..] ensures x in c.pending {
      assert x in s;
    }
    assert LinkTracked(c, b);
    forall x | x in c1.pending ensures x.fn != b.fn {
      if x.fn.IntervalLink? {
        assert LinkTracked(c, x);
      }
    }
    assert Valid(c1) by {
      forall x | x in c1.pending && x.fn.IntervalLink? ensures LinkTracked(c1, x) {
        assert LinkTracked(c, x);
      }
    }
    var c0 := c1.(fired := c1.fired + [Fired(b.fn, c1.virtualTime, None)]);
    ApplyActionsKeep(env, c0, env.script(c.intervals[iid].tag), iid);
  }
}

=== FILE: js.dfy ===
/**
 * The few JavaScript number semantics the modelled code relies on:
 * truthiness, `||` on numbers, `Math.ceil`, truncation toward zero,
 * the remainder operator `%` and the conversion done when a number is
 * stored into a `Uint32Array`.
 */
module Js {

  /**
   * A JavaScript number as the modelled code sees it: a finite value, or
   * NaN. `undefined` is represented by NaN too: every arithmetic operation,
   * comparison and truthiness test the modelled code applies to it behaves
   * as it does on NaN.
   */
  datatype Num = Num(value: real) | NaN

  /** A number is truthy unless it is 0 or NaN. */
  predicate Truthy(n: Num) {
    n.Num? && n.value != 0.0
  }

  /** `a || b` on numbers: `a` when truthy, `b` otherwise. */
  function Or(a: Num, b: Num): Num {
    if Truthy(a) then a else b
  }

  /** The value of a number that defaults to 0 when it is falsy (`n || 0`). */
  function OrZero(n: Num): (r: real)
    ensures Truthy(n) ==> r == n.value
    ensures !Truthy(n) ==> r == 0.0
  {
    if Truthy(n) then n.value else 0.0
  }

  /** `Math.ceil`: the least integer not below `r`. */
  function Ceil(r: real): (c: int)
    ensures r <= c as real < r + 1.0
  {
    -((-r).Floor)
  }

  /** Truncation toward zero, as `ToInt32`/`ToUint32` apply it before wrapping. */
  function Trunc(r: real): (t: int)
    ensures 0.0 <= r ==> 0 <= t && t as real <= r < t as real + 1.0
    ensures r < 0.0 ==> t <= 0 && t as real - 1.0 < r <= t as real
  {
    if r >= 0.0 then r.Floor else -((-r).Floor)
  }

  const TwoTo32: int := 0x1_0000_0000

  /**
   * `ToUint32`, the conversion applied when a number is stored into a
   * `Uint32Array`: NaN becomes 0, anything else is truncated and wrapped
   * modulo 2^32.
   */
  function ToUint32(n: Num): (w: int)
    ensures 0 <= w < TwoTo32
    ensures n.NaN? ==> w == 0
    ensures n.Num? && 0 <= Trunc(n.value) < TwoTo32 ==> w == Trunc(n.value)
    ensures n.Num? ==> (w - Trunc(n.value)) % TwoTo32 == 0
  {
    if n.NaN? then 0 else Trunc(n.value) % TwoTo32
  }

  /**
   * The JavaScript remainder `a % b` on integers: its sign is that of the
   * dividend (truncating division), unlike Dafny's Euclidean `%`.
   */
  function Rem(a: int, b: int): (r: int)
    requires b != 0
    ensures a >= 0 ==> r == a % b
    ensures a < 0 ==> r <= 0
    ensures -(if b < 0 then -b else b) < r < (if b < 0 then -b else b)
    ensures (a - r) % b == 0
  {
    if a >= 0 then
      assert (a - a % b) % b == 0 by {
        assert a - a % b == b * (a / b);
        MultipleRem(b, a / b);
      }
      a % b
    else
      NegatedRem(a, b);
      -((-a) % b)
  }

  /** Negating the remainder of `-a` gives a value congruent to `a`. */
  lemma NegatedRem(a: int, b: int)
    requires b != 0
    ensures (a + (-a) % b) % b == 0
  {
    var q := (-a) / b;
    assert a + (-a) % b == b * -q by {
      assert -a == b * q + (-a) % b;
      assert b * -q == -(b * q);
    }
    MultipleRem(b, -q);
  }

  /** A multiple of `b` leaves no remainder. */
  lemma MultipleRem(b: int, k: int)
    requires b != 0
    ensures (b * k) % b == 0
  {
    var m := b * k;
    var d := k - m / b;
    assert m % b == b * d by {
      assert m == b * (m / b) + m % b;
      assert b * k - b * (m / b) == b * (k - m / b);
    }
    var bb := if b < 0 then -b else b;
    var dd := if b < 0 then -d else d;
    assert b * d == bb * dd;
    if dd > 0 {
      assert bb * dd == bb * (dd - 1) + bb;
      NonNegativeProduct(bb, dd - 1);
    } else if dd < 0 {
      NonNegativeProduct(bb, -dd);
      assert bb * dd == -(bb * -dd);
    }
  }

  lemma NonNegativeProduct(x: int, y: int)
    requires x >= 0 && y >= 0
    ensures x * y >= 0
  {
  }}

=== FILE: overwrite_random.dfy ===
/**
 * The deterministic `Math.random` that lib/overwrite-random.js installs
 * into a page: how the `unrandom` option becomes four seeds, how they are
 * stored into two 64-bit xorshift128+ state words kept as pairs of 32-bit
 * words (index 0 the high half), the step `_xorshift128`, the conversion
 * `_statesToDouble`, and the generator with its ten warm-up steps.
 */
module OverwriteRandom {
  import opened Wrappers
  import opened Js
  import Strings

  const DefaultSeed1: bv32 := 10
  const DefaultSeed2: bv32 := 20
  const DefaultSeed3: bv32 := 0
  const DefaultSeed4: bv32 := 0
  const SeedIterations: nat := 10
  const RandomSeedLimit: int := 1000000000

  const TwoTo21: int := 0x20_0000
  const TwoTo53: int := 0x20_0000_0000_0000

  /**
   * The `unrandom` option: `undefined`, `false`, an array (of numbers), a
   * string, a number, or anything else (`true`, an object).
   */
  datatype Unrandom =
    | Undefined
    | False
    | Numbers(values: seq<Num>)
    | Text(text: string)
    | Number(n: Num)
    | Other

  /**
   * The seeds `overwriteRandom` hands to `overwritePageRandom`, or None when
   * it installs nothing. `draw` is the value `Math.random()` returns for the
   * `'random-seed'` option, and `parseInt` the library function applied to
   * each comma-separated piece of a string.
   */
  function SeedArgs(u: Unrandom, draw: real, parseInt: string -> Num): (r: Option<seq<Num>>)
    ensures r.None? <==> u.Undefined? || u.False?
    ensures u.Numbers? ==> r == Some(u.values)
    ensures u.Number? ==> r == Some([u.n])
    ensures u.Other? ==> r == Some([])
    ensures u.Text? && u.text != "random-seed" ==>
      r.Some? && |r.value| == |Strings.Split(u.text, ',')| >= 1 &&
      forall i :: 0 <= i < |r.value| ==> r.value[i] == parseInt(Strings.Split(u.text, ',')[i])
    ensures u == Text("random-seed") && 0.0 <= draw < 1.0 ==>
      r.Some? && |r.value| == 1 && r.value[0].Num? && 1.0 <= r.value[0].value <= RandomSeedLimit as real &&
      r.value[0].value.Floor as real == r.value[0].value
  {
    match u
    case Undefined => None
    case False => None
    case Numbers(values) => Some(values)
    case Text(text) =>
      if text == "random-seed" then
        var seed: int := (draw * RandomSeedLimit as real).Floor + 1;
        WholeReal(seed);
        Some([Num(seed as real)])
      else
        var parts := Strings.Split(text, ',');
        Some(seq(|parts|, i requires 0 <= i < |parts| => parseInt(parts[i])))
    case Number(n) => Some([n])
    case Other => Some([])
  }

  /** A whole number is its own floor. */
  lemma WholeReal(n: int)
    ensures (n as real).Floor == n
  {
  }

  /**
   * Seeds written as a comma-separated list come back one by one: each
   * piece without a comma is handed to `parseInt`, in order.
   */
  lemma SeedArgsOfList(pieces: seq<string>, draw: real, parseInt: string -> Num)
    requires |pieces| >= 1 && forall i :: 0 <= i < |pieces| ==> ',' !in pieces[i]
    requires Strings.Join(pieces, ',') != "random-seed"
    ensures var r := SeedArgs(Text(Strings.Join(pieces, ',')), draw, parseInt);
      r.Some? && |r.value| == |pieces| && forall i :: 0 <= i < |pieces| ==> r.value[i] == parseInt(pieces[i])
  {
    Strings.SplitJoin(pieces, ',');
  }

  /** A 64-bit state word as the two 32-bit words of its typed array: index 0 is the high half. */
  datatype Word64 = Word64(hi: bv32, lo: bv32)

  /** The two state words of the generator. */
  datatype State = State(state0: Word64, state1: Word64)

  const Zero: State := State(Word64(0, 0), Word64(0, 0))

  /**
   * Seed `i` (0 to 3, for seed1 to seed4) as stored into a `Uint32Array`;
   * a missing seed defaults to 0.
   */
  function SeedWord(args: seq<Num>, i: nat): bv32 {
    if i < |args| then ToUint32(args[i]) as bv32 else 0
  }

  /**
   * The state after seeding: seed1 and seed3 are the high and low halves of
   * state0, seed2 and seed4 those of state1; an all-zero state is replaced
   * by the default seeds.
   */
  function Seeded(args: seq<Num>): (s: State)
    ensures s != Zero
    ensures State(Word64(SeedWord(args, 0), SeedWord(args, 2)), Word64(SeedWord(args, 1), SeedWord(args, 3))) != Zero ==>
      s == State(Word64(SeedWord(args, 0), SeedWord(args, 2)), Word64(SeedWord(args, 1), SeedWord(args, 3)))
    ensures SeedWord(args, 0) == 0 && SeedWord(args, 1) == 0 && SeedWord(args, 2) == 0 && SeedWord(args, 3) == 0 ==>
      s == State(Word64(DefaultSeed1, DefaultSeed3), Word64(DefaultSeed2, DefaultSeed4))
  {
    var s := State(Word64(SeedWord(args, 0), SeedWord(args, 2)), Word64(SeedWord(args, 1), SeedWord(args, 3)));
    if s.state0.hi == 0 && s.state0.lo == 0 && s.state1.hi == 0 && s.state1.lo == 0 then
      State(Word64(DefaultSeed1, DefaultSeed3), Word64(DefaultSeed2, DefaultSeed4))
    else s
  }

  /**
   * The new high half of state1 in `_xorshift128`, from the old halves
   * `yA:yB` of state0 and the high half `xA` of state1. JavaScript's `<<`,
   * `>>>`, `|` and `^` on 32-bit integers are the bit-vector operations on
   * `bv32`.
   */
  function NextHigh(yA: bv32, yB: bv32, xA: bv32): bv32 {
    var yA1 := yA ^ ((yA << 23) | (yB >> 9));
    var yA2 := yA1 ^ (yA1 >> 17);
    yA2 ^ xA ^ (xA >> 26)
  }

  /** The new low half of state1 in `_xorshift128`, from the old halves `yA:yB` and `xA:xB`. */
  function NextLow(yA: bv32, yB: bv32, xA: bv32, xB: bv32): bv32 {
    var yA1 := yA ^ ((yA << 23) | (yB >> 9));
    var yB1 := yB ^ (yB << 23);
    var yB2 := yB1 ^ ((yA1 << 15) | (yB1 >> 17));
    yB2 ^ xB ^ ((xA << 6) | (xB >> 26))
  }

  /**
   * `_xorshift128`: the xorshift128+ step computed on the 32-bit halves,
   * high half first; state0 becomes the old state1.
   */
  function Xorshift(s: State): (r: State)
    ensures r.state0 == s.state1
  {
    var xA, xB := s.state1.hi, s.state1.lo;
    var yA, yB := s.state0.hi, s.state0.lo;
    State(Word64(xA, xB), Word64(NextHigh(yA, yB, xA), NextLow(yA, yB, xA, xB)))
  }

  /**
   * The halves that `Xorshift` puts into state1 make up the 64-bit
   * xorshift128+ step: with state0 the 64-bit word `yA:yB` (`s1`) and
   * state1 the word `xA:xB` (`s0`), the new state1 is `s1 ^= s1 << 23;
   * s1 ^= s1 >> 17; s1 ^ s0 ^ (s0 >> 26)`.
   */
  lemma XorshiftIsStep64(yA: bv32, yB: bv32, xA: bv32, xB: bv32)
    ensures
      var s1 := ((yA as bv64) << 32) | (yB as bv64);
      var s0 := ((xA as bv64) << 32) | (xB as bv64);
      var y1 := s1 ^ (s1 << 23);
      var y2 := y1 ^ (y1 >> 17);
      ((NextHigh(yA, yB, xA) as bv64) << 32) | (NextLow(yA, yB, xA, xB) as bv64) == y2 ^ s0 ^ (s0 >> 26)
  {
  }

  /**
   * The all-zero state is the one state the step maps to itself and the
   * only one it maps to the all-zero state, which is why seeding never
   * leaves the generator there.
   */
  lemma XorshiftZero(s: State)
    ensures Xorshift(s) == Zero <==> s == Zero
  {
  }

  /** The state after `n` steps. */
  function Steps(s: State, n: nat): State
    decreases n
  {
    if n == 0 then s else Steps(Xorshift(s), n - 1)
  }

  /** A state that is not all zero never becomes all zero. */
  lemma {:induction false} StepsNonZero(s: State, n: nat)
    requires s != Zero
    ensures Steps(s, n) != Zero
    decreases n
  {
    if n > 0 {
      XorshiftZero(s);
      StepsNonZero(Xorshift(s), n - 1);
    }
  }

  /** One more step at the end. */
  lemma {:induction false} StepsLast(s: State, n: nat)
    ensures Steps(s, n + 1) == Xorshift(Steps(s, n))
    decreases n
  {
    if n > 0 {
      StepsLast(Xorshift(s), n - 1);
    }
  }

  /** The 64-bit value of a state word, as an integer. */
  function Value(w: Word64): int {
    w.hi as int * TwoTo32 + w.lo as int
  }

  /**
   * The numerator of `_statesToDouble`: the high and low halves are added
   * separately, a carry out of the low sum moves into the high sum, and
   * `& 0x1FFFFF` keeps the low 21 bits of the high sum once it is
   * converted to a 32-bit integer.
   */
  function Numerator(s: State): (n: int)
    ensures 0 <= n < TwoTo53
  {
    HalvesNumerator(s.state0.hi as int, s.state0.lo as int, s.state1.hi as int, s.state1.lo as int)
  }

  /** The same, on the four 32-bit halves as integers. */
  function HalvesNumerator(hi0: int, lo0: int, hi1: int, lo1: int): (n: int)
    requires 0 <= hi0 < TwoTo32 && 0 <= lo0 < TwoTo32 && 0 <= hi1 < TwoTo32 && 0 <= lo1 < TwoTo32
    ensures 0 <= n < TwoTo53
  {
    var aSum := hi0 + hi1;
    var bSum := lo0 + lo1;
    var a := if bSum >= TwoTo32 then aSum + 1 else aSum;
    var b := if bSum >= TwoTo32 then bSum - TwoTo32 else bSum;
    ToUint32(Num(a as real)) % TwoTo21 * TwoTo32 + b
  }

  /**
   * The numerator is the low 53 bits of the sum of the two 64-bit state
   * words (taking the sum modulo 2^64 first changes nothing, as 2^53
   * divides 2^64).
   */
  lemma NumeratorLow53(s: State)
    ensures Numerator(s) == (Value(s.state0) + Value(s.state1)) % TwoTo53
  {
    HalvesLow53(s.state0.hi as int, s.state0.lo as int, s.state1.hi as int, s.state1.lo as int);
  }

  lemma HalvesLow53(hi0: int, lo0: int, hi1: int, lo1: int)
    requires 0 <= hi0 < TwoTo32 && 0 <= lo0 < TwoTo32 && 0 <= hi1 < TwoTo32 && 0 <= lo1 < TwoTo32
    ensures HalvesNumerator(hi0, lo0, hi1, lo1) == (hi0 * TwoTo32 + lo0 + (hi1 * TwoTo32 + lo1)) % TwoTo53
  {
    var bSum := lo0 + lo1;
    var a := if bSum >= TwoTo32 then hi0 + hi1 + 1 else hi0 + hi1;
    var b := if bSum >= TwoTo32 then bSum - TwoTo32 else bSum;
    assert Trunc(a as real) == a;
    assert hi0 * TwoTo32 + lo0 + (hi1 * TwoTo32 + lo1) == a * TwoTo32 + b;
    Low53(a, b, ToUint32(Num(a as real)));
  }

  /**
   * Keeping the low 21 bits of the 32-bit wrap `w` of the high half `a`
   * and putting the low half `b` under them gives the low 53 bits.
   */
  lemma Low53(a: int, b: int, w: int)
    requires 0 <= a && 0 <= b < TwoTo32 && 0 <= w < TwoTo32 && (w - a) % TwoTo32 == 0
    ensures w % TwoTo21 * TwoTo32 + b == (a * TwoTo32 + b) % TwoTo53
  {
    Low21(a, w);
    var m := a % TwoTo21;
    var q := a / TwoTo21;
    assert a == q * TwoTo21 + m;
    assert a * TwoTo32 + b == q * TwoTo53 + (m * TwoTo32 + b);
    ModUnique53(a * TwoTo32 + b, q, m * TwoTo32 + b);
  }

  /** Wrapping modulo 2^32 keeps the low 21 bits. */
  lemma Low21(a: int, w: int)
    requires 0 <= a && 0 <= w < TwoTo32 && (w - a) % TwoTo32 == 0
    ensures w % TwoTo21 == a % TwoTo21
  {
    var k := (w - a) / TwoTo32;
    assert w - a == k * TwoTo32;
    var q, m := a / TwoTo21, a % TwoTo21;
    assert a == q * TwoTo21 + m;
    assert w == (q + k * 2048) * TwoTo21 + m;
    ModUnique21(w, q + k * 2048, m);
  }

  lemma ModUnique21(x: int, q: int, r: int)
    requires 0 <= r < TwoTo21 && x == q * TwoTo21 + r
    ensures x % TwoTo21 == r
  {
  }

  lemma ModUnique53(x: int, q: int, r: int)
    requires 0 <= r < TwoTo53 && x == q * TwoTo53 + r
    ensures x % TwoTo53 == r
  {
  }

  /** `_statesToDouble`: the numerator over 2^53, a value in [0, 1). */
  function StatesToDouble(s: State): (r: real)
    ensures 0.0 <= r < 1.0
  {
    Numerator(s) as real / TwoTo53 as real
  }

  /**
   * The states the replaced `Math.random` leaves behind in its first `k`
   * calls, from state `s` after warm-up: each call takes one step.
   */
  function Orbit(s: State, k: nat): (r: seq<State>)
    ensures |r| == k
    decreases k
  {
    if k == 0 then [] else [Xorshift(s)] + Orbit(Xorshift(s), k - 1)
  }

  /** The values those calls return: each reads the state it leaves behind. */
  function Draws(s: State, k: nat): (r: seq<real>)
    ensures |r| == k
    ensures forall i :: 0 <= i < k ==> 0.0 <= r[i] < 1.0
  {
    var states := Orbit(s, k);
    seq(k, i requires 0 <= i < k => StatesToDouble(states[i]))
  }

  /** Call `i` leaves the state after `i + 1` steps. */
  lemma {:induction false} OrbitAt(s: State, k: nat, i: nat)
    requires i < k
    ensures Orbit(s, k)[i] == Steps(s, i + 1)
    decreases k
  {
    var next := Xorshift(s);
    assert Orbit(s, k) == [next] + Orbit(next, k - 1);
    if i > 0 {
      OrbitAt(next, k - 1, i - 1);
      assert Orbit(s, k)[i] == Orbit(next, k - 1)[i - 1];
    }
  }

  /** Call `i` returns the value read after `i + 1` steps. */
  lemma DrawsAreSteps(s: State, k: nat, i: nat)
    requires i < k
    ensures Draws(s, k)[i] == StatesToDouble(Steps(s, i + 1))
  {
    OrbitAt(s, k, i);
  }

  /** The state of a page's generator once installed: seeded, then stepped ten times. */
  function Installed(args: seq<Num>): (s: State)
    ensures s != Zero
  {
    StepsNonZero(Seeded(args), SeedIterations);
    Steps(Seeded(args), SeedIterations)
  }

  /**
   * The generator installed into a page by `overwritePageRandom`: two typed
   * arrays of two 32-bit words each. The signed and unsigned views of one
   * buffer hold the same bits, so each buffer is one array here.
   */
  class Generator {
    const state0: array<bv32>
    const state1: array<bv32>

    ghost predicate Valid()
      reads this
    {
      state0.Length == 2 && state1.Length == 2 && state0 != state1
    }

    function Get(): State
      reads this, state0, state1
      requires Valid()
    {
      State(Word64(state0[0], state0[1]), Word64(state1[0], state1[1]))
    }

    /** `overwritePageRandom(page, ...args)`: seed, fall back on the defaults, warm up. */
    constructor (args: seq<Num>)
      ensures Valid() && fresh(state0) && fresh(state1)
      ensures Get() == Installed(args)
    {
      var s0, s1 := SeedArrays(args);
      state0, state1 := s0, s1;
      new;
      assert Steps(Seeded(args), 0) == Get();
      for i := 0 to SeedIterations
        invariant Valid() && fresh(state0) && fresh(state1)
        invariant Get() == Steps(Seeded(args), i)
      {
        StepsLast(Seeded(args), i);
        Xorshift128();
      }
    }

    /** The seeding part of `overwritePageRandom`: the two typed arrays, with the defaults when all four words are zero. */
    static method SeedArrays(args: seq<Num>) returns (s0: array<bv32>, s1: array<bv32>)
      ensures fresh(s0) && fresh(s1) && s0 != s1 && s0.Length == 2 && s1.Length == 2
      ensures State(Word64(s0[0], s0[1]), Word64(s1[0], s1[1])) == Seeded(args)
    {
      s0 := new bv32[2] [SeedWord(args, 0), SeedWord(args, 2)];
      s1 := new bv32[2] [SeedWord(args, 1), SeedWord(args, 3)];
      if s0[0] == 0 && s0[1] == 0 && s1[0] == 0 && s1[1] == 0 {
        s0[0], s0[1] := DefaultSeed1, DefaultSeed3;
        s1[0], s1[1] := DefaultSeed2, DefaultSeed4;
      }
    }

    /** `_xorshift128`: one step, written over the typed arrays in place. */
    method Xorshift128()
      requires Valid()
      modifies state0, state1
      ensures Valid()
      ensures Get() == Xorshift(old(Get()))
    {
      var next := Xorshift(Get());
      state0[0], state0[1] := next.state0.hi, next.state0.lo;
      state1[0], state1[1] := next.state1.hi, next.state1.lo;
    }

    /** The replaced `Math.random`: one step, then the value of the new state. */
    method Random() returns (r: real)
      requires Valid()
      modifies state0, state1
      ensures Valid()
      ensures Get() == Xorshift(old(Get()))
      ensures r == StatesToDouble(Get())
    {
      Xorshift128();
      r := StatesToDouble(Get());
    }
  }
}

=== FILE: overwrite_time.dfy ===
/**
 * The virtual clock and timer queue that lib/overwrite-time.js installs
 * into a page, as functions from one clock state to the next. The class
 * in virtual_clock.dfy performs the same operations in place and is
 * proved equal to these functions; the properties of the clock are
 * proved here, once, about the functions.
 *
 * The page's own callbacks are opaque: each is identified by a tag, and
 * what it does to the clock when called is given by `Env.script`, the
 * timer calls it makes, in order.
 */
module OverwriteTime {
  import opened Wrappers
  import opened PendingBlocks

  /** The closure state of one `setInterval` chain. */
  datatype Interval = Interval(tag: Tag, delay: Option<real>, running: bool, lastCallId: nat)

  /** A call of one of the page's callbacks: which, at what virtual time, with which frame time. */
  datatype Fired = Fired(fn: Callback, time: real, frameTime: Option<real>)

  /**
   * A timer call a page callback makes. A delay is None when it is missing
   * or NaN. `Clear` stands for clearTimeout, clearInterval and
   * cancelAnimationFrame, which are the same function.
   */
  datatype Action =
    | SetTimeout(tag: Tag, delay: Option<real>)
    | SetInterval(tag: Tag, delay: Option<real>)
    | RequestFrame(tag: Tag)
    | Clear(id: nat)

  /**
   * What is fixed when the clock is installed: the behaviour of the page's
   * callbacks, the animation-frame duration, and whether animation-frame
   * callbacks receive the frame time (lib/overwrite-time.js) or nothing
   * (the older copy in index.js).
   */
  datatype Env = Env(script: Tag -> seq<Action>, animationFrameDuration: real, passesFrameTime: bool)

  /** The variables of the installed clock, and the calls of page callbacks made so far. */
  datatype Clock = Clock(
    virtualTime: real,
    startTime: real,
    pending: seq<Block>,
    idCount: nat,
    frameTime: real,
    intervals: map<nat, Interval>,
    fired: seq<Fired>)

  /** A delay that is missing, NaN or non-negative. */
  predicate NonNegative(delay: Option<real>) {
    delay.None? || delay.value >= 0.0
  }

  /** The delay `_setTimeout` uses: a missing, zero or NaN delay becomes 1. */
  function NormalizeDelay(delay: Option<real>): (d: real)
    ensures d != 0.0
    ensures delay.None? || delay.value == 0.0 ==> d == 1.0
    ensures delay.Some? && delay.value != 0.0 ==> d == delay.value
    ensures NonNegative(delay) ==> d > 0.0
  {
    if delay.None? || delay.value == 0.0 then 1.0 else delay.value
  }

  /** `_setTimeout(fn, delay)`: queue a block and hand out the next id. */
  function Enqueue(c: Clock, fn: Callback, delay: Option<real>): (Clock, nat) {
    var id := c.idCount;
    (c.(pending := c.pending + [Block(c.virtualTime + NormalizeDelay(delay), id, fn)], idCount := id + 1), id)
  }

  /**
   * `_clearTimeout(id)`: stop the interval with that id, if any (its `clear`
   * removes the blocks of its pending link and resets `running`), then
   * remove every block with that id. The nested `_clearTimeout(lastCallId)`
   * never finds an interval under `lastCallId` (no interval id is a link id
   * in a valid clock, ClockProperties.IdsBelowCount), so it is written here
   * as the plain removal it performs.
   */
  function ClearTimer(c: Clock, id: nat): Clock {
    var c1 :=
      if id in c.intervals then
        var iv := c.intervals[id];
        c.(pending := WithoutId(c.pending, iv.lastCallId), intervals := c.intervals[id := iv.(running := false)])
      else c;
    c1.(pending := WithoutId(c1.pending, id))
  }

  /** `setInterval(fn, delay)`: reserve an id for the chain, then queue its first link. */
  function AddInterval(c: Clock, tag: Tag, delay: Option<real>): (Clock, nat) {
    var id := c.idCount;
    var e := Enqueue(c.(idCount := id + 1), IntervalLink(id), delay);
    (e.0.(intervals := e.0.intervals[id := Interval(tag, delay, true, e.1)]), id)
  }

  /** `requestAnimationFrame(fn)`: a timeout of the animation-frame duration. */
  function FrameRequest(env: Env, c: Clock, fn: Callback): (Clock, nat) {
    Enqueue(c, fn, Some(env.animationFrameDuration))
  }

  /** The effect of one timer call made by a page callback. */
  function ApplyAction(env: Env, c: Clock, a: Action): Clock {
    match a
    case SetTimeout(t, d) => Enqueue(c, UserTimeout(t), d).0
    case SetInterval(t, d) => AddInterval(c, t, d).0
    case RequestFrame(t) => FrameRequest(env, c, AnimFrame(t)).0
    case Clear(id) => ClearTimer(c, id)
  }

  /**
   * The timer calls of a page callback, in order. They never move the
   * clock, never call a callback, never hand an id back and never forget
   * an interval (lemma ClockProperties.ApplyActionsFresh adds that every
   * block they leave queued was queued before or is new).
   */
  function ApplyActions(env: Env, c: Clock, acts: seq<Action>): (r: Clock)
    ensures r.virtualTime == c.virtualTime && r.startTime == c.startTime
    ensures r.frameTime == c.frameTime && r.fired == c.fired
    ensures r.idCount >= c.idCount
    ensures c.intervals.Keys <= r.intervals.Keys
    decreases |acts|
  {
    if acts == [] then c else ApplyActions(env, ApplyAction(env, c, acts[0]), acts[1..])
  }

  /** `_updateFrameTime`: request the next frame update, then record the frame time. */
  function FrameTick(env: Env, c: Clock): Clock {
    var c1 := FrameRequest(env, c, FrameUpdater).0;
    c1.(frameTime := c1.virtualTime)
  }

  /** Run the function of a block that has just been taken off the queue. */
  function FireCallback(env: Env, c: Clock, fn: Callback): Clock {
    match fn
    case UserTimeout(t) =>
      ApplyActions(env, c.(fired := c.fired + [Fired(fn, c.virtualTime, None)]), env.script(t))
    case AnimFrame(t) =>
      var arg := if env.passesFrameTime then Some(c.frameTime) else None;
      ApplyActions(env, c.(fired := c.fired + [Fired(fn, c.virtualTime, arg)]), env.script(t))
    case FrameUpdater =>
      FrameTick(env, c)
    case IntervalLink(iid) =>
      if iid !in c.intervals then c
      else
        var c1 := ApplyActions(env, c.(fired := c.fired + [Fired(fn, c.virtualTime, None)]), env.script(c.intervals[iid].tag));
        if iid in c1.intervals && c1.intervals[iid].running then Relink(c1, iid) else c1
  }

  /** The tail of the interval wrapper: queue the next link and remember its id in `lastCallId`. */
  function Relink(c: Clock, iid: nat): Clock
    requires iid in c.intervals
  {
    var e := Enqueue(c, IntervalLink(iid), c.intervals[iid].delay);
    e.0.(intervals := e.0.intervals[iid := e.0.intervals[iid].(lastCallId := e.1)])
  }

  /** `_sortPendingBlocks`. */
  function SortPending(c: Clock): Clock {
    c.(pending := SortBlocks(c.pending))
  }

  /** `_processNextBlock`: take the least block off the queue, move the clock to it, run it. */
  function NextBlock(env: Env, c: Clock): Clock {
    if |c.pending| == 0 then c
    else
      var s := SortBlocks(c.pending);
      FireCallback(env, c.(pending := s[1..], virtualTime := s[0].time), s[0].fn)
  }

  /** The body of the loop of `_processUntilTime`: run the next block, then sort the queue again. */
  function Step(env: Env): Clock -> Clock {
    c => SortPending(NextBlock(env, c))
  }

  /**
   * The loop of `_processUntilTime` with body `step`, run for at most
   * `fuel` turns: while the head of the queue is due at or before
   * `startTime + ms`, take a turn; then set the clock to `startTime + ms`.
   * The boolean is false when the fuel ran out while a block was still due.
   */
  function Drain(step: Clock -> Clock, c: Clock, ms: real, fuel: nat): (Clock, bool)
    decreases fuel
  {
    if |c.pending| > 0 && c.pending[0].time <= c.startTime + ms then
      if fuel == 0 then (c, false) else Drain(step, step(c), ms, fuel - 1)
    else (c.(virtualTime := c.startTime + ms), true)
  }

  /** One turn of the loop, when a block is due and fuel is left. */
  lemma DrainTurn(step: Clock -> Clock, c: Clock, ms: real, fuel: nat, rest: nat)
    requires |c.pending| > 0 && c.pending[0].time <= c.startTime + ms && fuel == rest + 1
    ensures Drain(step, c, ms, fuel) == Drain(step, step(c), ms, rest)
  {
  }

  /** `_processUntilTime(ms)`: sort, then run the loop. */
  function UntilTime(env: Env, c: Clock, ms: real, fuel: nat): (Clock, bool) {
    Drain(Step(env), SortPending(c), ms, fuel)
  }

  /** The state right after installation, with the start time given. */
  function Install(env: Env, startTime: real): Clock {
    var c := Clock(startTime, startTime, [], 1, startTime, map[], []);
    if env.passesFrameTime then FrameTick(env, c) else c
  }
}

=== FILE: pending_blocks.dfy ===
/**
 * The queue of pending blocks of the virtual clock: the callbacks that
 * `setTimeout`, `setInterval` and `requestAnimationFrame` put off to a
 * virtual time, the `(time, id)` order in which `_sortPendingBlocks`
 * arranges them, and the removal of every block with a given id that
 * `_clearTimeout` performs.
 */
module PendingBlocks {

  /** The identity of a function handed over by the page (callbacks are opaque). */
  type Tag = nat

  /** What a block runs when its time comes. */
  datatype Callback =
    | UserTimeout(tag: Tag)          // a function given to setTimeout
    | IntervalLink(intervalId: nat)  // one link of the timeout chain behind a setInterval
    | FrameUpdater                   // the self-rescheduling _updateFrameTime wrapper
    | AnimFrame(tag: Tag)            // a function given to requestAnimationFrame

  /** One pending block: `{time, id, fn}` (the forwarded arguments are opaque and left out). */
  datatype Block = Block(time: real, id: nat, fn: Callback)

  /** The comparator of `_sortPendingBlocks`: earlier time first, smaller id first on equal times. */
  predicate Before(a: Block, b: Block) {
    a.time < b.time || (a.time == b.time && a.id <= b.id)
  }

  predicate Sorted(s: seq<Block>) {
    forall i, j :: 0 <= i < j < |s| ==> Before(s[i], s[j])
  }

  /** The ids of the blocks of `s`. */
  function Ids(s: seq<Block>): set<nat> {
    set b | b in s :: b.id
  }

  /** No two blocks of `s` share an id. */
  predicate DistinctIds(s: seq<Block>) {
    forall i, j :: 0 <= i < j < |s| ==> s[i].id != s[j].id
  }

  /** Inserts `b` into `s` after every block that comes before it. */
  function Insert(b: Block, s: seq<Block>): (r: seq<Block>)
    ensures multiset(r) == multiset(s) + multiset{b}
    ensures |r| == |s| + 1
  {
    if s == [] then [b]
    else if Before(b, s[0]) then [b] + s
    else
      assert s == [s[0]] + s[1..];
      [s[0]] + Insert(b, s[1..])
  }

  /** Inserting into a sorted queue keeps it sorted. */
  lemma {:induction false} InsertSorted(b: Block, s: seq<Block>)
    requires Sorted(s)
    ensures Sorted(Insert(b, s))
  {
    if s != [] && !Before(b, s[0]) {
      var t := Insert(b, s[1..]);
      InsertSorted(b, s[1..]);
      forall x | x in t ensures Before(s[0], x) {
        assert x in multiset(t);
        if x != b {
          assert x in multiset(s[1..]);
          var k :| 0 <= k < |s[1..]| && s[1..][k] == x;
          assert s[k + 1] == x;
        }
      }
      forall i, j | 0 <= i < j < |t| + 1 ensures Before(([s[0]] + t)[i], ([s[0]] + t)[j]) {
        assert ([s[0]] + t)[j] == t[j - 1];
        assert t[j - 1] in t;
        if i > 0 {
          assert ([s[0]] + t)[i] == t[i - 1];
        }
      }
    }
  }

  /**
   * The result of `_sortPendingBlocks`. `Array.prototype.sort` is a library
   * routine; it is modelled by insertion sort, which is stable like it.
   */
  function SortBlocks(s: seq<Block>): (r: seq<Block>)
    ensures |r| == |s|
    ensures Sorted(r)
  {
    if s == [] then []
    else
      InsertSorted(s[0], SortBlocks(s[1..]));
      Insert(s[0], SortBlocks(s[1..]))
  }

  /** Sorting only reorders: the queue holds the same blocks, as often, afterwards. */
  lemma {:induction false} SortBlocksPermutes(s: seq<Block>)
    ensures multiset(SortBlocks(s)) == multiset(s)
    ensures forall b :: b in SortBlocks(s) <==> b in s
  {
    if s != [] {
      SortBlocksPermutes(s[1..]);
      assert s == [s[0]] + s[1..];
    }
    forall b ensures b in SortBlocks(s) <==> b in s {
      assert b in SortBlocks(s) <==> b in multiset(SortBlocks(s));
      assert b in s <==> b in multiset(s);
    }
  }

  /** The blocks of `s` whose id is not `id`, in their original order. */
  function WithoutId(s: seq<Block>, id: nat): (r: seq<Block>)
    ensures |r| <= |s|
  {
    if s == [] then []
    else (if s[0].id == id then [] else [s[0]]) + WithoutId(s[1..], id)
  }

  /** The scan keeps exactly the blocks whose id differs, and changes nothing when no block has the id. */
  lemma {:induction false} WithoutIdMembers(s: seq<Block>, id: nat)
    ensures forall b :: b in WithoutId(s, id) <==> b in s && b.id != id
    ensures id !in Ids(s) ==> WithoutId(s, id) == s
  {
    if s != [] {
      WithoutIdMembers(s[1..], id);
      assert s == [s[0]] + s[1..];
      assert Ids(s[1..]) <= Ids(s);
    }
  }

  /**
   * One step of the scan of `_clearTimeout` at index `i`, with the blocks
   * before `i` already kept: splicing out a matching block, or moving past
   * a block that does not match, leaves what the scan will keep unchanged.
   */
  lemma ScanStep(s: seq<Block>, i: nat, id: nat)
    requires i < |s|
    ensures s[i].id == id ==>
      var t := s[..i] + s[i + 1..];
      t[..i] + WithoutId(t[i..], id) == s[..i] + WithoutId(s[i..], id)
    ensures s[i].id != id ==> s[..i + 1] + WithoutId(s[i + 1..], id) == s[..i] + WithoutId(s[i..], id)
  {
    assert s[i..][0] == s[i] && s[i..][1..] == s[i + 1..];
    assert s[..i + 1] == s[..i] + [s[i]];
    var t := s[..i] + s[i + 1..];
    assert t[..i] == s[..i] && t[i..] == s[i + 1..];
  }

  /** Filtering distributes over concatenation: the scan can be split at any point. */
  lemma {:induction false} WithoutIdAppend(a: seq<Block>, b: seq<Block>, id: nat)
    ensures WithoutId(a + b, id) == WithoutId(a, id) + WithoutId(b, id)
  {
    if a == [] {
      assert a + b == b;
    } else {
      var head := if a[0].id == id then [] else [a[0]];
      assert (a + b)[0] == a[0] && (a + b)[1..] == a[1..] + b;
      calc {
        WithoutId(a + b, id);
        head + WithoutId(a[1..] + b, id);
        { WithoutIdAppend(a[1..], b, id); }
        head + (WithoutId(a[1..], id) + WithoutId(b, id));
        (head + WithoutId(a[1..], id)) + WithoutId(b, id);
        WithoutId(a, id) + WithoutId(b, id);
      }
    }
  }

  /** The least block of a sorted sequence is its head. */
  lemma SortedHeadLeast(s: seq<Block>)
    requires Sorted(s) && |s| > 0
    ensures forall b :: b in s ==> Before(s[0], b)
  {
  }

  /** The head of the sorted queue is a pending block that comes before every pending block. */
  lemma SortedHeadIsLeast(s: seq<Block>)
    requires |s| > 0
    ensures SortBlocks(s)[0] in s
    ensures forall b :: b in s ==> Before(SortBlocks(s)[0], b)
  {
    var r := SortBlocks(s);
    SortBlocksPermutes(s);
    assert r[0] in r;
    SortedHeadLeast(r);
  }

  /** Blocks with equal multisets have the same ids. */
  lemma PermutationIds(a: seq<Block>, b: seq<Block>)
    requires multiset(a) == multiset(b)
    ensures Ids(a) == Ids(b)
  {
    forall x | x in a ensures x in b { assert x in multiset(a); }
    forall x | x in b ensures x in a { assert x in multiset(b); }
  }

  lemma {:induction false} InsertDistinct(b: Block, s: seq<Block>)
    requires DistinctIds(s) && b.id !in Ids(s)
    ensures DistinctIds(Insert(b, s))
  {
    if s != [] && !Before(b, s[0]) {
      var t := Insert(b, s[1..]);
      assert s[0] in s;
      assert Ids(s[1..]) <= Ids(s);
      InsertDistinct(b, s[1..]);
      forall x | x in t ensures x.id != s[0].id {
        assert x in multiset(t);
        if x != b {
          assert x in s[1..];
          var k :| 1 <= k < |s| && s[k] == x;
        }
      }
      forall j | 0 < j < |t| + 1 ensures ([s[0]] + t)[j].id != s[0].id {
        assert ([s[0]] + t)[j] == t[j - 1];
        assert t[j - 1] in t;
      }
    } else if s != [] {
      forall j | 0 < j < |s| + 1 ensures ([b] + s)[j].id != b.id {
        assert ([b] + s)[j] == s[j - 1];
      }
    }
  }

  /** Sorting a queue whose ids are distinct keeps them distinct. */
  lemma {:induction false} SortDistinct(s: seq<Block>)
    requires DistinctIds(s)
    ensures DistinctIds(SortBlocks(s))
    ensures Ids(SortBlocks(s)) == Ids(s)
  {
    SortBlocksPermutes(s);
    PermutationIds(SortBlocks(s), s);
    if s != [] {
      var rest := SortBlocks(s[1..]);
      SortDistinct(s[1..]);
      forall x | x in s[1..] ensures x.id != s[0].id {
        var k :| 0 <= k < |s[1..]| && s[1..][k] == x;
        assert s[k + 1] == x;
      }
      InsertDistinct(s[0], rest);
    }
  }

  /** Removing blocks keeps the remaining ids distinct. */
  lemma {:induction false} WithoutIdDistinct(s: seq<Block>, id: nat)
    requires DistinctIds(s)
    ensures DistinctIds(WithoutId(s, id))
  {
    if s != [] {
      WithoutIdDistinct(s[1..], id);
      WithoutIdMembers(s[1..], id);
      var t := WithoutId(s[1..], id);
      if s[0].id != id {
        forall j | 0 < j < |t| + 1 ensures ([s[0]] + t)[j].id != s[0].id {
          assert ([s[0]] + t)[j] == t[j - 1];
          assert t[j - 1] in t;
          var k :| 0 <= k < |s[1..]| && s[1..][k] == t[j - 1];
          assert s[k + 1] == t[j - 1];
        }
      }
    }
  }
}

=== FILE: recorder.dfy ===
/**
 * The capture session of index.js: how the frame rate, the number of
 * frames and the frame durations follow from the options, which function
 * names the files, and the loop that visits each frame's virtual time.
 * The scheduler that index.js installs into the page is the clock of
 * OverwriteTime with `Env.passesFrameTime` false.
 */
module Recorder {
  import opened Wrappers
  import opened Js
  import Strings
  import opened Utils

  const DefaultDuration: real := 5.0
  const DefaultFps: real := 60.0

  /** What the options resolve to: frames per second, frames to capture, and the two frame lengths in milliseconds. */
  datatype Timing = Timing(fps: real, framesToCapture: real, frameDuration: real, animationFrameDuration: real)

  /**
   * `animationFrameDuration`: the frame length itself above 60 frames per
   * second, a sixtieth of a second otherwise.
   */
  function AnimationFrameDuration(fps: real): (d: real)
    requires fps != 0.0
    ensures fps > 60.0 ==> d == 1000.0 / fps && d < 1000.0 / 60.0
    ensures fps <= 60.0 ==> d == 1000.0 / 60.0
    ensures fps > 0.0 ==> d <= 1000.0 / fps
  {
    if fps > 60.0 then 1000.0 / fps else 1000.0 / 60.0
  }

  /**
   * The frames per second: a given (truthy) `fps`; without one, `frames`
   * over `duration` when both are given, and 60 otherwise.
   */
  function ResolveFps(frames: Num, fps: Num, duration: Num): (r: real)
    ensures r != 0.0
    ensures Truthy(fps) ==> r == fps.value
    ensures !Truthy(fps) && Truthy(frames) && Truthy(duration) ==> r * duration.value == frames.value
    ensures !Truthy(fps) && !(Truthy(frames) && Truthy(duration)) ==> r == DefaultFps
  {
    if Truthy(fps) then fps.value
    else if Truthy(frames) && Truthy(duration) then frames.value / duration.value
    else DefaultFps
  }

  /**
   * The options `frames`, `fps` and `duration` as index.js resolves them
   * (a falsy value, 0, NaN or undefined, counts as not given).
   */
  function ResolveTiming(frames: Num, fps: Num, duration: Num): (t: Timing)
    ensures t.fps == ResolveFps(frames, fps, duration)
    ensures Truthy(frames) ==> t.framesToCapture == frames.value
    ensures !Truthy(frames) ==> t.framesToCapture == (if Truthy(duration) then duration.value else DefaultDuration) * t.fps
    ensures t.frameDuration * t.fps == 1000.0
    ensures t.animationFrameDuration == AnimationFrameDuration(t.fps)
  {
    var f := ResolveFps(frames, fps, duration);
    var count :=
      if Truthy(frames) then frames.value
      else if Truthy(duration) then duration.value * f
      else DefaultDuration * f;
    Timing(f, count, 1000.0 / f, AnimationFrameDuration(f))
  }

  /** With a positive frame rate, animation frames are never longer than captured frames. */
  lemma AnimationFramesFitFrames(frames: Num, fps: Num, duration: Num)
    requires ResolveTiming(frames, fps, duration).fps > 0.0
    ensures var t := ResolveTiming(frames, fps, duration);
      0.0 < t.animationFrameDuration <= t.frameDuration
  {
  }

  /**
   * Without `frames`, a whole duration at a whole frame rate gives one frame
   * per frame length: the last frame is `duration` seconds after the first
   * one's start.
   */
  lemma DurationCovered(fps: Num, duration: Num)
    requires Truthy(fps) && fps.value > 0.0 && Truthy(duration)
    ensures var t := ResolveTiming(NaN, fps, duration);
      t.framesToCapture * t.frameDuration == 1000.0 * duration.value
  {
    var t := ResolveTiming(NaN, fps, duration);
    calc {
      t.framesToCapture * t.frameDuration;
      (duration.value * t.fps) * t.frameDuration;
      duration.value * (t.fps * t.frameDuration);
    }
  }

  /**
   * The converter index.js uses: an output pattern wins even over a given
   * converter; without either, a stream means no file and otherwise the
   * default zero-padded name.
   */
  function IndexConverter(fileNameConverter: Option<(nat, real) -> Option<string>>, outputPattern: Option<string>, stream: bool): (c: Converter)
    ensures TruthyText(outputPattern) ==> c == Pattern(outputPattern.value)
    ensures !TruthyText(outputPattern) && fileNameConverter.Some? ==> c == Given(fileNameConverter.value)
    ensures c == NoFile <==> !TruthyText(outputPattern) && fileNameConverter.None? && stream
    ensures c == Padded <==> !TruthyText(outputPattern) && fileNameConverter.None? && !stream
  {
    if TruthyText(outputPattern) then Pattern(outputPattern.value)
    else if fileNameConverter.Some? then Given(fileNameConverter.value)
    else if stream then NoFile
    else Padded
  }

  /** The URL contains `://`. */
  predicate HasScheme(url: string) {
    exists i: nat | i <= |url| :: Strings.SliceAt(url, "://", i)
  }

  /**
   * The page to open: `url` or `index.html`, and, without `://` in it, a
   * file URL of the path resolved against the working directory.
   */
  function ResolveUrl(host: Host, cwd: string, url: Option<string>): (r: string)
    ensures var u := if TruthyText(url) then url.value else "index.html";
      r == if HasScheme(u) then u else "file://" + host.resolve(cwd, u)
    ensures HasScheme(r)
  {
    var u := if TruthyText(url) then url.value else "index.html";
    if HasScheme(u) then u
    else
      var r := "file://" + host.resolve(cwd, u);
      assert Strings.SliceAt(r, "://", 4);
      r
  }

  /** The number of frames the loop captures: the least whole number not below `framesToCapture`. */
  function FrameCount(framesToCapture: real): (n: nat)
    ensures framesToCapture <= 0.0 ==> n == 0
    ensures framesToCapture > 0.0 ==> framesToCapture <= n as real < framesToCapture + 1.0
  {
    if framesToCapture <= 0.0 then 0 else Ceil(framesToCapture)
  }

  /** A whole number of frames is captured exactly. */
  lemma FrameCountWhole(n: nat)
    ensures FrameCount(n as real) == n
  {
  }

  /** One captured frame: its number, the virtual time the page is moved to, and its file. */
  datatype Shot = Shot(frame: nat, time: real, path: Option<string>)

  /** The virtual time frame `k` (from 1) is captured at. */
  function ShotTime(t: Timing, delayMs: real, k: nat): real {
    delayMs + k as real * t.frameDuration
  }

  /** Frame `k` (from 1) is captured at `delayMs + k * frameDuration`, into the file its converter names. */
  function ShotAt(host: Host, c: Converter, outputPath: string, t: Timing, delayMs: real, k: nat): Shot {
    Shot(k, ShotTime(t, delayMs, k), FilePath(host, c, outputPath, k, t.framesToCapture))
  }

  /** `f(1)` to `f(n)`, in order. */
  function Frames<T>(f: nat -> T, n: nat): (r: seq<T>)
    ensures |r| == n
  {
    if n == 0 then [] else Frames(f, n - 1) + [f(n)]
  }

  /** Element `k` of `Frames(f, n)` is `f(k + 1)`. */
  lemma {:induction false} FramesAt<T>(f: nat -> T, n: nat, k: nat)
    requires k < n
    ensures Frames(f, n)[k] == f(k + 1)
  {
    if k < n - 1 {
      FramesAt(f, n - 1, k);
    }
  }

  /** The shots of frames 1 to `n`, in order. */
  function Shots(host: Host, c: Converter, outputPath: string, t: Timing, delayMs: real, n: nat): (r: seq<Shot>)
    ensures |r| == n
  {
    Frames(k => ShotAt(host, c, outputPath, t, delayMs, k), n)
  }

  /** Shot `k` of the sequence is frame `k + 1`. */
  lemma ShotsAt(host: Host, c: Converter, outputPath: string, t: Timing, delayMs: real, n: nat, k: nat)
    requires k < n
    ensures Shots(host, c, outputPath, t, delayMs, n)[k] == ShotAt(host, c, outputPath, t, delayMs, k + 1)
  {
    FramesAt(k => ShotAt(host, c, outputPath, t, delayMs, k), n, k);
  }

  /** The shots of frames 1 to `n + 1` are those of frames 1 to `n`, then frame `n + 1`. */
  lemma ShotsSnoc(host: Host, c: Converter, outputPath: string, t: Timing, delayMs: real, n: nat)
    ensures Shots(host, c, outputPath, t, delayMs, n + 1)
      == Shots(host, c, outputPath, t, delayMs, n) + [ShotAt(host, c, outputPath, t, delayMs, n + 1)]
  {
  }

  /** The loop test `m < framesToCapture` holds exactly for the frames before the frame count. */
  lemma FrameTest(framesToCapture: real, m: nat)
    ensures m as real < framesToCapture <==> m < FrameCount(framesToCapture)
  {
  }

  /** With a positive frame duration, the capture times strictly increase. */
  lemma ShotTimesIncrease(t: Timing, delayMs: real, j: nat, k: nat)
    requires t.frameDuration > 0.0 && j < k
    ensures ShotTime(t, delayMs, j) < ShotTime(t, delayMs, k)
  {
    var d, gap := t.frameDuration, (k - j) as real;
    PositiveProduct(gap, d);
    assert k as real * d == j as real * d + gap * d;
  }

  lemma PositiveProduct(a: real, b: real)
    requires a > 0.0 && b > 0.0
    ensures a * b > 0.0
  {
  }

  /**
   * With the default names and a whole number `n` of frames, frames 1 to
   * `n` are written to files whose names have the same length and differ.
   */
  lemma DefaultNames(host: Host, n: nat, j: nat, k: nat)
    requires host.numberText(n as real) == Decimal(n)
    requires 1 <= j <= n && 1 <= k <= n
    ensures FileName(host, Padded, j, n as real).Some? && FileName(host, Padded, k, n as real).Some?
    ensures |FileName(host, Padded, j, n as real).value| == |FileName(host, Padded, k, n as real).value|
    ensures j != k ==> FileName(host, Padded, j, n as real) != FileName(host, Padded, k, n as real)
  {
    PaddedNamesSameLength(j, n);
    PaddedNamesSameLength(k, n);
    if j != k {
      PaddedNamesDistinct(j, k, Decimal(n));
    }
  }

  /** The directories the capture of `shots` makes sure exist. */
  function NeededDirs(host: Host, sep: char, shots: seq<Shot>): set<string>
    decreases |shots|
  {
    if shots == [] then {}
    else
      var last := shots[|shots| - 1];
      NeededDirs(host, sep, shots[..|shots| - 1]) + (if last.path.Some? then Directories(host, sep, last.path.value) else {})
  }

  /** One more shot adds its file's directories. */
  lemma NeededDirsSnoc(host: Host, sep: char, shots: seq<Shot>, shot: Shot)
    ensures NeededDirs(host, sep, shots + [shot]) ==
      NeededDirs(host, sep, shots) + (if shot.path.Some? then Directories(host, sep, shot.path.value) else {})
  {
    assert (shots + [shot])[..|shots|] == shots;
  }

  /** Every captured file's directories are among them. */
  lemma {:induction false} NeededDirsCover(host: Host, sep: char, shots: seq<Shot>, k: nat)
    requires k < |shots| && shots[k].path.Some?
    ensures Directories(host, sep, shots[k].path.value) <= NeededDirs(host, sep, shots)
    decreases |shots|
  {
    if k < |shots| - 1 {
      var init := shots[..|shots| - 1];
      assert init[k] == shots[k];
      NeededDirsCover(host, sep, init, k);
    }
  }

  /**
   * The body of the capture loop for frame `frameCount`: name the file and
   * make its directories. The frames before it gave the shots `done`, on
   * top of the directories `before`.
   */
  method CaptureFrame(host: Host, c: Converter, outputPath: string, t: Timing, delayMs: real, fs: FileSystem, frameCount: nat,
                      ghost done: seq<Shot>, ghost before: set<string>)
    returns (shot: Shot)
    modifies fs
    requires frameCount >= 1 && done == Shots(host, c, outputPath, t, delayMs, frameCount - 1)
    requires fs.dirs == before + NeededDirs(host, fs.sep, done)
    ensures shot == ShotAt(host, c, outputPath, t, delayMs, frameCount)
    ensures done + [shot] == Shots(host, c, outputPath, t, delayMs, frameCount)
    ensures fs.dirs == before + NeededDirs(host, fs.sep, done + [shot])
  {
    shot := ShotAt(host, c, outputPath, t, delayMs, frameCount);
    ghost var needed := NeededDirs(host, fs.sep, done);
    if shot.path.Some? {
      fs.MakeFileDirectoryIfNeeded(host, shot.path.value);
      assert fs.dirs == before + (needed + Directories(host, fs.sep, shot.path.value));
    }
    NeededDirsSnoc(host, fs.sep, done, shot);
    ShotsSnoc(host, c, outputPath, t, delayMs, frameCount - 1);
  }

  /**
   * The capture loop: while `frameCount++ < framesToCapture`, move the
   * page to the frame's time, name its file, and make the file's
   * directories. The browser work (moving the page's clocks, the
   * screenshot, the stream) is not part of the model.
   */
  method CaptureFrames(host: Host, c: Converter, outputPath: string, t: Timing, delayMs: real, fs: FileSystem)
    returns (shots: seq<Shot>)
    modifies fs
    ensures shots == Shots(host, c, outputPath, t, delayMs, FrameCount(t.framesToCapture))
    ensures fs.dirs == old(fs.dirs) + NeededDirs(host, fs.sep, shots)
  {
    ghost var n := FrameCount(t.framesToCapture);
    var frameCount: nat := 0;
    shots := [];
    FrameTest(t.framesToCapture, frameCount);
    var more := frameCount as real < t.framesToCapture;
    frameCount := frameCount + 1;
    while more
      invariant 1 <= frameCount <= n + 1 && (more <==> frameCount <= n)
      invariant shots == Shots(host, c, outputPath, t, delayMs, frameCount - 1)
      invariant fs.dirs == old(fs.dirs) + NeededDirs(host, fs.sep, shots)
      decreases n + 1 - frameCount
    {
      var shot := CaptureFrame(host, c, outputPath, t, delayMs, fs, frameCount, shots, old(fs.dirs));
      shots := shots + [shot];
      FrameTest(t.framesToCapture, frameCount);
      more := frameCount as real < t.framesToCapture;
      frameCount := frameCount + 1;
    }
  }
}

=== FILE: strings.dfy ===
/**
 * The JavaScript string operations the modelled code uses, on strings of
 * characters: `indexOf`, `split` and `join` with a one-character
 * separator, `startsWith` and `trim`.
 */
module Strings {
  import opened Wrappers

  /** `s.indexOf(c)`: the first position of `c`, or None where JavaScript gives -1. */
  function IndexOf(s: string, c: char): (r: Option<nat>)
    ensures r.None? <==> c !in s
    ensures r.Some? ==> r.value < |s| && s[r.value] == c && c !in s[..r.value]
  {
    if |s| == 0 then None
    else if s[0] == c then Some(0)
    else
      match IndexOf(s[1..], c)
      case None => None
      case Some(i) => assert s[1..][..i] == s[1..i + 1]; Some(i + 1)
  }

  /** `s.split(sep)` for a one-character separator. */
  function Split(s: string, sep: char): (parts: seq<string>)
    ensures |parts| >= 1
    ensures forall i :: 0 <= i < |parts| ==> sep !in parts[i]
    decreases |s|
  {
    match IndexOf(s, sep)
    case None => [s]
    case Some(i) => [s[..i]] + Split(s[i + 1..], sep)
  }

  /** `parts.join(sep)` for a one-character separator. */
  function Join(parts: seq<string>, sep: char): string {
    if |parts| == 0 then ""
    else if |parts| == 1 then parts[0]
    else parts[0] + [sep] + Join(parts[1..], sep)
  }

  lemma JoinCons(head: string, parts: seq<string>, sep: char)
    requires |parts| >= 1
    ensures Join([head] + parts, sep) == head + [sep] + Join(parts, sep)
  {
    assert ([head] + parts)[1..] == parts;
  }

  /** Splitting and joining again with the same separator gives the string back. */
  lemma {:induction false} JoinSplit(s: string, sep: char)
    ensures Join(Split(s, sep), sep) == s
    decreases |s|
  {
    match IndexOf(s, sep)
    case None =>
    case Some(i) =>
      var rest := Split(s[i + 1..], sep);
      assert Split(s, sep) == [s[..i]] + rest;
      JoinSplit(s[i + 1..], sep);
      JoinCons(s[..i], rest, sep);
      assert s == s[..i] + [sep] + s[i + 1..];
  }

  /** Joining parts free of the separator and splitting again gives the parts back. */
  lemma {:induction false} SplitJoin(parts: seq<string>, sep: char)
    requires |parts| >= 1
    requires forall i :: 0 <= i < |parts| ==> sep !in parts[i]
    ensures Split(Join(parts, sep), sep) == parts
  {
    if |parts| > 1 {
      var rest := Join(parts[1..], sep);
      var s := parts[0] + [sep] + rest;
      assert s[|parts[0]|] == sep;
      assert s[..|parts[0]|] == parts[0];
      assert IndexOf(s, sep) == Some(|parts[0]|);
      assert s[|parts[0]| + 1..] == rest;
      SplitJoin(parts[1..], sep);
    }
  }

  /** Joining one more part appends the separator and that part. */
  lemma {:induction false} JoinSnoc(parts: seq<string>, last: string, sep: char)
    requires |parts| >= 1
    ensures Join(parts + [last], sep) == Join(parts, sep) + [sep] + last
  {
    if |parts| > 1 {
      assert (parts + [last])[1..] == parts[1..] + [last];
      JoinSnoc(parts[1..], last, sep);
    } else {
      assert (parts + [last])[1..] == [last];
    }
  }

  /** `s.startsWith(p)`. */
  predicate StartsWith(s: string, p: string) {
    |p| <= |s| && s[..|p|] == p
  }

  /** The white-space and line-terminator characters `String.prototype.trim` removes. */
  predicate IsSpace(c: char) {
    c == ' ' || c == '\t' || c == '\n' || c == '\r' || c == '\U{0B}' || c == '\U{0C}'
    || c == '\U{A0}' || c == '\U{1680}' || ('\U{2000}' <= c <= '\U{200A}')
    || c == '\U{2028}' || c == '\U{2029}' || c == '\U{202F}' || c == '\U{205F}'
    || c == '\U{3000}' || c == '\U{FEFF}'
  }

  function TrimStart(s: string): (r: string)
    ensures |r| <= |s| && r == s[|s| - |r|..]
    ensures forall i :: 0 <= i < |s| - |r| ==> IsSpace(s[i])
    ensures |r| > 0 ==> !IsSpace(r[0])
  {
    if |s| > 0 && IsSpace(s[0]) then TrimStart(s[1..]) else s
  }

  function TrimEnd(s: string): (r: string)
    ensures |r| <= |s| && r == s[..|r|]
    ensures forall i :: |r| <= i < |s| ==> IsSpace(s[i])
    ensures |r| > 0 ==> !IsSpace(r[|r| - 1])
  {
    if |s| > 0 && IsSpace(s[|s| - 1]) then TrimEnd(s[..|s| - 1]) else s
  }

  /** `r` occurs in `s` at position `i`. */
  predicate SliceAt(s: string, r: string, i: nat) {
    i + |r| <= |s| && s[i..i + |r|] == r
  }

  /** `r` occurs in `s` at position `i`, and everything of `s` before and after it is white space. */
  predicate TrimmedAt(s: string, r: string, i: nat) {
    && SliceAt(s, r, i)
    && (forall k :: 0 <= k < i ==> IsSpace(s[k]))
    && (forall k :: i + |r| <= k < |s| ==> IsSpace(s[k]))
  }

  /**
   * `s.trim()`: the slice of `s` left once the white space at both ends is
   * removed; it neither starts nor ends with white space.
   */
  function Trim(s: string): (r: string)
    ensures exists i: nat :: TrimmedAt(s, r, i)
    ensures |r| > 0 ==> !IsSpace(r[0]) && !IsSpace(r[|r| - 1])
  {
    var t := TrimStart(s);
    var r := TrimEnd(t);
    assert TrimmedAt(s, r, |s| - |t|) by {
      forall k | |s| - |t| + |r| <= k < |s| ensures IsSpace(s[k]) {
        assert s[k] == t[k - (|s| - |t|)];
      }
    }
    r
  }
}

=== FILE: utils.dfy ===
/**
 * The helpers of lib/utils.js: the choice and application of the function
 * that names the file of each frame, the creation of the directories above
 * a file, and the flattening of the frame tree of a page.
 */
module Utils {
  import opened Wrappers
  import Strings

  /**
   * The library functions the helpers call, which the model does not
   * interpret: `sprintf` with a user pattern, `path.resolve(base, name)`,
   * `Number.prototype.toString`, the `dir` of `path.parse` and `path.extname`.
   */
  datatype Host = Host(
    format: (string, nat) -> string,
    resolve: (string, string) -> string,
    numberText: real -> string,
    dirOf: string -> string,
    extname: string -> string)

  /** A string option is truthy when it is present and not empty. */
  predicate TruthyText(s: Option<string>) {
    s.Some? && s.value != ""
  }

  /**
   * The function that names the file of frame `num` of `maxNum`: one the
   * user gave (its result may be falsy), a `sprintf` pattern, none, or the
   * default zero-padded name.
   */
  datatype Converter =
    | Given(name: (nat, real) -> Option<string>)
    | Pattern(pattern: string)
    | NoFile
    | Padded

  /**
   * The converter `makeFilePathConverter` picks: a given converter first,
   * then an output pattern, then no file when frames go to a frame
   * processor and no output directory is set, else the default name.
   */
  function ChooseConverter(
    fileNameConverter: Option<(nat, real) -> Option<string>>,
    outputPattern: Option<string>,
    frameProcessor: bool,
    outputDirectory: Option<string>): (c: Converter)
    ensures fileNameConverter.Some? ==> c == Given(fileNameConverter.value)
    ensures fileNameConverter.None? && TruthyText(outputPattern) ==> c == Pattern(outputPattern.value)
    ensures c == NoFile <==>
      fileNameConverter.None? && !TruthyText(outputPattern) && frameProcessor && !TruthyText(outputDirectory)
    ensures c == Padded <==>
      fileNameConverter.None? && !TruthyText(outputPattern) && !(frameProcessor && !TruthyText(outputDirectory))
  {
    if fileNameConverter.Some? then Given(fileNameConverter.value)
    else if TruthyText(outputPattern) then Pattern(outputPattern.value)
    else if frameProcessor && !TruthyText(outputDirectory) then NoFile
    else Padded
  }

  /** The decimal digit `d`. */
  function Digit(d: nat): (c: char)
    requires d < 10
    ensures '0' <= c <= '9' && DigitValue(c) == d
  {
    ('0' as int + d) as char
  }

  /** The value of a digit character. */
  function DigitValue(c: char): nat {
    if '0' <= c <= '9' then (c - '0') as nat else 0
  }

  /** `n.toString()` for a natural number: its decimal digits, without leading zeros. */
  function Decimal(n: nat): (s: string)
    ensures 1 <= |s|
    ensures forall i :: 0 <= i < |s| ==> '0' <= s[i] <= '9'
    ensures |s| > 1 ==> s[0] != '0'
    decreases n
  {
    if n < 10 then [Digit(n)] else Decimal(n / 10) + [Digit(n % 10)]
  }

  /** The number a string of decimal digits stands for, read from the right. */
  function DigitsValue(s: string): nat
    decreases |s|
  {
    if s == [] then 0 else DigitsValue(s[..|s| - 1]) * 10 + DigitValue(s[|s| - 1])
  }

  /** Reading back the decimal digits of `n` gives `n`. */
  lemma {:induction false} DecimalValue(n: nat)
    ensures DigitsValue(Decimal(n)) == n
    decreases n
  {
    if n >= 10 {
      var s := Decimal(n);
      assert s[..|s| - 1] == Decimal(n / 10);
      DecimalValue(n / 10);
      assert n == n / 10 * 10 + n % 10;
    }
  }

  /** A number never has fewer digits than a smaller one. */
  lemma {:induction false} DecimalLengthMonotone(a: nat, b: nat)
    requires a <= b
    ensures |Decimal(a)| <= |Decimal(b)|
    decreases b
  {
    if a >= 10 {
      DecimalLengthMonotone(a / 10, b / 10);
    }
  }

  function Zeros(k: nat): (z: string)
    ensures |z| == k && forall i :: 0 <= i < k ==> z[i] == '0'
  {
    seq(k, _ => '0')
  }

  /** Leading zeros do not change the value of a string of digits. */
  lemma {:induction false} ZerosValue(k: nat, s: string)
    ensures DigitsValue(Zeros(k) + s) == DigitsValue(s)
    decreases |s| + k
  {
    if s == [] {
      if k > 0 {
        assert Zeros(k) + s == Zeros(k);
        assert Zeros(k)[..k - 1] == Zeros(k - 1);
        ZerosValue(k - 1, []);
        assert Zeros(k - 1) + [] == Zeros(k - 1);
      }
    } else {
      var t := Zeros(k) + s;
      assert t[..|t| - 1] == Zeros(k) + s[..|s| - 1];
      ZerosValue(k, s[..|s| - 1]);
    }
  }

  /** `sprintf('%0<width>d', n)` for a natural number: zeros in front up to `width` characters. */
  function ZeroPad(n: nat, width: nat): (r: string)
    ensures |r| == if |Decimal(n)| < width then width else |Decimal(n)|
    ensures forall i :: 0 <= i < |r| ==> '0' <= r[i] <= '9'
    ensures DigitsValue(r) == n
  {
    var s := Decimal(n);
    DecimalValue(n);
    if |s| < width then
      ZerosValue(width - |s|, s);
      Zeros(width - |s|) + s
    else s
  }

  /**
   * The default file name of frame `num`: the frame number zero-padded to
   * as many characters as `maxNum.toString()` has, then `.png`.
   */
  function PaddedName(num: nat, maxText: string): (r: string)
    ensures |r| >= 5 && r[|r| - 4..] == ".png"
    ensures |r| - 4 == if |Decimal(num)| < |maxText| then |maxText| else |Decimal(num)|
    ensures forall i :: 0 <= i < |r| - 4 ==> '0' <= r[i] <= '9'
    ensures DigitsValue(r[..|r| - 4]) == num
  {
    ZeroPad(num, |maxText|) + ".png"
  }

  /** Two frames never get the same default name, whatever the total. */
  lemma PaddedNamesDistinct(a: nat, b: nat, maxText: string)
    requires a != b
    ensures PaddedName(a, maxText) != PaddedName(b, maxText)
  {
  }

  /** The default names of frames 0 to `maxNum` of a whole number of frames all have the same length. */
  lemma PaddedNamesSameLength(num: nat, maxNum: nat)
    requires num <= maxNum
    ensures |PaddedName(num, Decimal(maxNum))| == |Decimal(maxNum)| + 4
  {
    DecimalLengthMonotone(num, maxNum);
  }

  /** The name a converter gives frame `num` of `maxNum`; None stands for a falsy name. */
  function FileName(host: Host, c: Converter, num: nat, maxNum: real): (r: Option<string>)
    ensures c.NoFile? ==> r.None?
    ensures c.Padded? ==> r == Some(PaddedName(num, host.numberText(maxNum)))
    ensures c.Pattern? ==> r == Some(host.format(c.pattern, num))
  {
    match c
    case Given(name) => name(num, maxNum)
    case Pattern(pattern) => Some(host.format(pattern, num))
    case NoFile => None
    case Padded => Some(PaddedName(num, host.numberText(maxNum)))
  }

  /**
   * The function `makeFilePathConverter` returns: undefined when the name
   * is falsy, else the name resolved against the output path.
   */
  function FilePath(host: Host, c: Converter, outputPath: string, num: nat, maxNum: real): (r: Option<string>)
    ensures r.None? <==> !TruthyText(FileName(host, c, num, maxNum))
    ensures r.Some? ==> r.value == host.resolve(outputPath, FileName(host, c, num, maxNum).value)
  {
    var name := FileName(host, c, num, maxNum);
    if TruthyText(name) then Some(host.resolve(outputPath, name.value)) else None
  }

  /** With the default converter every frame has a file; with none, no frame has. */
  lemma FilePathDefault(host: Host, c: Converter, outputPath: string, num: nat, maxNum: real)
    ensures c.Padded? ==> FilePath(host, c, outputPath, num, maxNum).Some?
    ensures c.NoFile? ==> FilePath(host, c, outputPath, num, maxNum).None?
  {
  }

  /** The directory made of the first `i` components of a split path. */
  function Prefix(parts: seq<string>, sep: char, i: nat): string
    requires 1 <= i <= |parts|
  {
    Strings.Join(parts[..i], sep)
  }

  /** Each prefix is longer than the one before it. */
  lemma PrefixGrows(parts: seq<string>, sep: char, i: nat)
    requires 1 <= i < |parts|
    ensures |Prefix(parts, sep, i)| < |Prefix(parts, sep, i + 1)|
  {
    assert parts[..i + 1] == parts[..i] + [parts[i]];
    Strings.JoinSnoc(parts[..i], parts[i], sep);
  }

  /** A later prefix is strictly longer. */
  lemma {:induction false} PrefixLonger(parts: seq<string>, sep: char, i: nat, j: nat)
    requires 1 <= i < j <= |parts|
    ensures |Prefix(parts, sep, i)| < |Prefix(parts, sep, j)|
    decreases j - i
  {
    PrefixGrows(parts, sep, i);
    if i + 1 < j {
      PrefixLonger(parts, sep, i + 1, j);
    }
  }

  /** The non-empty prefixes of `parts`. */
  function Prefixes(parts: seq<string>, sep: char, from: nat, to: nat): set<string>
    requires 1 <= from
  {
    set i | from <= i < to && i <= |parts| && Prefix(parts, sep, i) != "" :: Prefix(parts, sep, i)
  }

  /** One more prefix. */
  lemma PrefixesStep(parts: seq<string>, sep: char, from: nat, to: nat)
    requires 1 <= from <= to <= |parts|
    ensures Prefixes(parts, sep, from, to + 1) ==
      Prefixes(parts, sep, from, to) + (if Prefix(parts, sep, to) != "" then {Prefix(parts, sep, to)} else {})
  {
  }

  /**
   * The `mkdirSync` calls of the loop of `makeFileDirectoryIfNeeded` from
   * prefix `i` on, given the directories that exist: each non-empty prefix
   * that does not exist yet, in increasing length.
   */
  function ToMake(parts: seq<string>, sep: char, existing: set<string>, i: nat): seq<string>
    requires 1 <= i
    decreases |parts| + 1 - i
  {
    if i > |parts| then []
    else
      var d := Prefix(parts, sep, i);
      if d != "" && d !in existing then [d] + ToMake(parts, sep, existing + {d}, i + 1)
      else ToMake(parts, sep, existing, i + 1)
  }

  /**
   * Every directory the loop creates is a non-empty prefix that did not
   * exist, and each is longer than the one created before it, so a parent
   * is created before its child and no directory is created twice.
   */
  lemma {:induction false} ToMakeFresh(parts: seq<string>, sep: char, existing: set<string>, i: nat)
    requires 1 <= i
    ensures forall d :: d in ToMake(parts, sep, existing, i) ==>
      d != "" && d !in existing && d in Prefixes(parts, sep, i, |parts| + 1)
    ensures forall k, l :: 0 <= k < l < |ToMake(parts, sep, existing, i)| ==>
      |ToMake(parts, sep, existing, i)[k]| < |ToMake(parts, sep, existing, i)[l]|
    decreases |parts| + 1 - i
  {
    if i <= |parts| {
      var d := Prefix(parts, sep, i);
      var e := if d != "" && d !in existing then existing + {d} else existing;
      ToMakeFresh(parts, sep, e, i + 1);
      var rest := ToMake(parts, sep, e, i + 1);
      forall x | x in rest
        ensures |d| < |x| && x in Prefixes(parts, sep, i, |parts| + 1)
      {
        var j :| i + 1 <= j < |parts| + 1 && j <= |parts| && Prefix(parts, sep, j) != "" && Prefix(parts, sep, j) == x;
        PrefixLonger(parts, sep, i, j);
      }
      assert ToMake(parts, sep, existing, i) == if d != "" && d !in existing then [d] + rest else rest;
      assert d != "" ==> d in Prefixes(parts, sep, i, |parts| + 1);
    }
  }

  /**
   * One turn of the loop of `makeFileDirectoryIfNeeded` at prefix `i`:
   * creating the prefix when it is non-empty and missing keeps the
   * directories equal to those that existed plus the prefixes visited, and
   * the creations equal to the creations so far followed by those still to
   * come.
   */
  lemma VisitPrefix(parts: seq<string>, sep: char, before: set<string>, made0: seq<string>,
                    dirs: set<string>, made: seq<string>, i: nat)
    requires 1 <= i <= |parts|
    requires dirs == before + Prefixes(parts, sep, 1, i)
    requires made0 + ToMake(parts, sep, before, 1) == made + ToMake(parts, sep, dirs, i)
    ensures var d := Prefix(parts, sep, i);
      var create := d != "" && d !in dirs;
      var dirs' := if create then dirs + {d} else dirs;
      var made' := if create then made + [d] else made;
      dirs' == before + Prefixes(parts, sep, 1, i + 1)
      && made0 + ToMake(parts, sep, before, 1) == made' + ToMake(parts, sep, dirs', i + 1)
  {
    var d := Prefix(parts, sep, i);
    PrefixesStep(parts, sep, 1, i);
    if d != "" && d !in dirs {
      assert ToMake(parts, sep, dirs, i) == [d] + ToMake(parts, sep, dirs + {d}, i + 1);
      assert made + ([d] + ToMake(parts, sep, dirs + {d}, i + 1)) == (made + [d]) + ToMake(parts, sep, dirs + {d}, i + 1);
    } else {
      assert ToMake(parts, sep, dirs, i) == ToMake(parts, sep, dirs, i + 1);
    }
  }

  /** The non-empty prefixes of the directory of `filePath`: what `makeFileDirectoryIfNeeded` makes sure exist. */
  function Directories(host: Host, sep: char, filePath: string): set<string> {
    var parts := Strings.Split(host.dirOf(filePath), sep);
    Prefixes(parts, sep, 1, |parts| + 1)
  }

  /** The directories of a file system, and the `mkdirSync` calls made so far, in order. */
  class FileSystem {
    const sep: char
    var dirs: set<string>
    var made: seq<string>

    constructor (sep: char, dirs: set<string>)
      ensures this.sep == sep && this.dirs == dirs && made == []
    {
      this.sep := sep;
      this.dirs := dirs;
      made := [];
    }

    /**
     * `makeFileDirectoryIfNeeded(filePath)`: walk the prefixes of the
     * file's directory in increasing length and create each non-empty one
     * that does not exist.
     */
    method MakeFileDirectoryIfNeeded(host: Host, filePath: string)
      modifies this
      ensures dirs == old(dirs) + Directories(host, sep, filePath)
      ensures var parts := Strings.Split(host.dirOf(filePath), sep);
        made == old(made) + ToMake(parts, sep, old(dirs), 1)
    {
      var directories := Strings.Split(host.dirOf(filePath), sep);
      for ind := 1 to |directories| + 1
        invariant dirs == old(dirs) + Prefixes(directories, sep, 1, ind)
        invariant old(made) + ToMake(directories, sep, old(dirs), 1) == made + ToMake(directories, sep, dirs, ind)
      {
        var currDir := Strings.Join(directories[..ind], sep);
        VisitPrefix(directories, sep, old(dirs), old(made), dirs, made, ind);
        if currDir != "" && currDir !in dirs {
          dirs := dirs + {currDir};
          made := made + [currDir];
        }
      }
    }
  }

  /** A frame of a page and its child frames. */
  datatype Frame = Frame(name: nat, children: seq<Frame>)

  /** The number of frames in a frame tree. */
  function Size(f: Frame): nat
    decreases f, 1
  {
    1 + SizeAll(f.children)
  }

  function SizeAll(cs: seq<Frame>): nat
    decreases cs, 0
  {
    if cs == [] then 0 else Size(cs[0]) + SizeAll(cs[1..])
  }

  /** `x` is `f` or a frame below it. */
  predicate Within(x: Frame, f: Frame)
    decreases f
  {
    x == f || exists c :: c in f.children && Within(x, c)
  }

  /** `getBrowserFrames(frame)`: the frame tree in pre-order, the frame itself first. */
  function BrowserFrames(f: Frame): (r: seq<Frame>)
    ensures |r| == Size(f) && r[0] == f
    decreases f, 1
  {
    [f] + ChildFrames(f.children)
  }

  /** The frames of each child in turn, concatenated. */
  function ChildFrames(cs: seq<Frame>): (r: seq<Frame>)
    ensures |r| == SizeAll(cs)
    decreases cs, 0
  {
    if cs == [] then [] else BrowserFrames(cs[0]) + ChildFrames(cs[1..])
  }

  /** The list holds exactly the frames of the tree. */
  lemma {:induction false} BrowserFramesMembers(f: Frame, x: Frame)
    ensures x in BrowserFrames(f) <==> Within(x, f)
    decreases f, 1
  {
    ChildFramesMembers(f.children, x);
  }

  lemma {:induction false} ChildFramesMembers(cs: seq<Frame>, x: Frame)
    ensures x in ChildFrames(cs) <==> exists c :: c in cs && Within(x, c)
    decreases cs, 0
  {
    if cs != [] {
      BrowserFramesMembers(cs[0], x);
      ChildFramesMembers(cs[1..], x);
      assert forall c :: c in cs <==> c == cs[0] || c in cs[1..];
    }
  }
}

=== FILE: virtual_clock.dfy ===
/**
 * The clock that lib/overwrite-time.js installs into a page, as an object
 * whose methods update its variables in place, as the closure variables of
 * the injected script are updated. Each method is proved to compute the
 * clock function of module OverwriteTime that specifies it, so the
 * properties proved there (ClockProperties, ClockMonotonic) hold of every
 * state this object goes through.
 */
module VirtualClock {
  import opened Wrappers
  import opened PendingBlocks
  import opened OverwriteTime

  class Page {
    /** The timer calls each of the page's callbacks makes. */
    const script: Tag -> seq<Action>
    const animationFrameDuration: real
    /** Whether animation-frame callbacks receive the frame time (lib/overwrite-time.js) or nothing (index.js). */
    const passesFrameTime: bool
    /** `_startTime`. */
    const startTime: real

    /** `_virtualTime`. */
    var virtualTime: real
    /** `_pendingBlocks`. */
    var pendingBlocks: seq<Block>
    /** `_intervals`, with the closure state of each interval. */
    var intervals: map<nat, Interval>
    /** `_idCount`. */
    var idCount: nat
    /** `_frameTime`. */
    var frameTime: real
    /** The calls of the page's callbacks so far. */
    var fired: seq<Fired>

    function Environment(): Env {
      Env(script, animationFrameDuration, passesFrameTime)
    }

    function State(): Clock
      reads this
    {
      Clock(virtualTime, startTime, pendingBlocks, idCount, frameTime, intervals, fired)
    }

    /**
     * Installation at the real time `now`: the clock starts there, and
     * lib/overwrite-time.js then runs `_updateFrameTime` once.
     */
    constructor (script: Tag -> seq<Action>, animationFrameDuration: real, passesFrameTime: bool, now: real)
      ensures Environment() == Env(script, animationFrameDuration, passesFrameTime)
      ensures State() == Install(Environment(), now)
    {
      this.script := script;
      this.animationFrameDuration := animationFrameDuration;
      this.passesFrameTime := passesFrameTime;
      startTime := now;
      virtualTime := now;
      pendingBlocks := [];
      intervals := map[];
      idCount := 1;
      frameTime := now;
      fired := [];
      new;
      if passesFrameTime {
        UpdateFrameTime();
      }
    }

    /** `Date.now()` and `performance.now()`, and `new Date()` without arguments. */
    method Now() returns (t: real)
      ensures t == virtualTime
    {
      t := virtualTime;
    }

    /** `_sortPendingBlocks`. */
    method SortPendingBlocks()
      modifies this
      ensures State() == SortPending(old(State()))
    {
      pendingBlocks := SortBlocks(pendingBlocks);
    }

    /** `_setTimeout(fn, delay)`. */
    method SetTimeout(fn: Callback, delay: Option<real>) returns (id: nat)
      modifies this
      ensures (State(), id) == Enqueue(old(State()), fn, delay)
    {
      id := idCount;
      var timeout := if delay.None? || delay.value == 0.0 then 1.0 else delay.value;
      pendingBlocks := pendingBlocks + [Block(timeout + virtualTime, id, fn)];
      idCount := idCount + 1;
    }

    /** `requestAnimationFrame(fn)`. */
    method RequestAnimationFrame(fn: Callback) returns (id: nat)
      modifies this
      ensures (State(), id) == FrameRequest(Environment(), old(State()), fn)
    {
      id := SetTimeout(fn, Some(animationFrameDuration));
    }

    /** `setInterval(fn, delay)`: the interval takes an id, its first link the next. */
    method SetInterval(tag: Tag, delay: Option<real>) returns (id: nat)
      modifies this
      ensures (State(), id) == AddInterval(old(State()), tag, delay)
    {
      id := idCount;
      idCount := idCount + 1;
      var lastCallId := SetTimeout(IntervalLink(id), delay);
      intervals := intervals[id := Interval(tag, delay, true, lastCallId)];
    }

    /** The scan of `_clearTimeout` that splices out every block with the given id. */
    method RemoveBlocksWithId(id: nat)
      modifies this
      ensures State() == old(State()).(pending := WithoutId(old(pendingBlocks), id))
    {
      var i := 0;
      while i < |pendingBlocks|
        invariant 0 <= i <= |pendingBlocks|
        invariant pendingBlocks[..i] + WithoutId(pendingBlocks[i..], id) == WithoutId(old(pendingBlocks), id)
        invariant virtualTime == old(virtualTime) && idCount == old(idCount) && frameTime == old(frameTime)
        invariant intervals == old(intervals) && fired == old(fired)
        decreases |pendingBlocks| - i
      {
        ScanStep(pendingBlocks, i, id);
        if pendingBlocks[i].id == id {
          pendingBlocks := pendingBlocks[..i] + pendingBlocks[i + 1..];
        } else {
          i := i + 1;
        }
      }
      assert pendingBlocks[..i] == pendingBlocks;
    }

    /** `clearTimeout`, `clearInterval` and `cancelAnimationFrame`. */
    method ClearTimeout(id: nat)
      modifies this
      ensures State() == ClearTimer(old(State()), id)
    {
      if id in intervals {
        var iv := intervals[id];
        RemoveBlocksWithId(iv.lastCallId);
        intervals := intervals[id := iv.(running := false)];
      }
      RemoveBlocksWithId(id);
    }

    /** `_updateFrameTime`: request the next frame update, then record the frame time. */
    method UpdateFrameTime()
      modifies this
      ensures State() == FrameTick(Environment(), old(State()))
    {
      var _ := RequestAnimationFrame(FrameUpdater);
      frameTime := virtualTime;
    }

    /** A callback of the page: it makes its timer calls in order. */
    method RunScript(acts: seq<Action>)
      modifies this
      ensures State() == ApplyActions(Environment(), old(State()), acts)
    {
      for i := 0 to |acts|
        invariant ApplyActions(Environment(), State(), acts[i..]) == ApplyActions(Environment(), old(State()), acts)
      {
        ghost var before := State();
        match acts[i]
        case SetTimeout(t, d) =>
          var _ := SetTimeout(UserTimeout(t), d);
        case SetInterval(t, d) =>
          var _ := SetInterval(t, d);
        case RequestFrame(t) =>
          var _ := RequestAnimationFrame(AnimFrame(t));
        case Clear(id) =>
          ClearTimeout(id);
        assert State() == ApplyAction(Environment(), before, acts[i]);
        assert acts[i..][1..] == acts[i + 1..];
      }
    }

    /** Call the function of a block that has just been taken off the queue. */
    method RunCallback(fn: Callback)
      modifies this
      ensures State() == FireCallback(Environment(), old(State()), fn)
    {
      match fn
      case UserTimeout(t) =>
        fired := fired + [Fired(fn, virtualTime, None)];
        RunScript(script(t));
      case AnimFrame(t) =>
        fired := fired + [Fired(fn, virtualTime, if passesFrameTime then Some(frameTime) else None)];
        RunScript(script(t));
      case FrameUpdater =>
        UpdateFrameTime();
      case IntervalLink(iid) =>
        if iid in intervals {
          fired := fired + [Fired(fn, virtualTime, None)];
          RunScript(script(intervals[iid].tag));
          if iid in intervals && intervals[iid].running {
            var lastCallId := SetTimeout(IntervalLink(iid), intervals[iid].delay);
            intervals := intervals[iid := intervals[iid].(lastCallId := lastCallId)];
          }
        }
    }

    /** `_processNextBlock`. */
    method ProcessNextBlock()
      modifies this
      ensures State() == NextBlock(Environment(), old(State()))
    {
      if |pendingBlocks| == 0 {
        return;
      }
      SortPendingBlocks();
      var block := pendingBlocks[0];
      pendingBlocks := pendingBlocks[1..];
      virtualTime := block.time;
      RunCallback(block.fn);
    }

    /** The body of the loop of `_processUntilTime`. */
    method ProcessAndSort()
      modifies this
      ensures State() == Step(Environment())(old(State()))
    {
      ProcessNextBlock();
      SortPendingBlocks();
    }

    /**
     * One test of the loop condition of `_processUntilTime` and, when a
     * block is due, one turn of its body, where `goal` is what the loop
     * function `Drain` gives for the current state with `fuel` turns left.
     * When the loop ends (`done`), the state and `drained` are that result;
     * otherwise the loop goes on from the new state with fewer turns left.
     */
    method Turn(ms: real, fuel: nat, ghost goal: (Clock, bool)) returns (rest: nat, done: bool, drained: bool)
      modifies this
      requires Drain(Step(Environment()), State(), ms, fuel) == goal
      ensures done ==> (State(), drained) == goal
      ensures !done ==> rest < fuel && Drain(Step(Environment()), State(), ms, rest) == goal
    {
      if |pendingBlocks| > 0 && pendingBlocks[0].time <= startTime + ms {
        if fuel == 0 {
          return 0, true, false;
        }
        rest := fuel - 1;
        DrainTurn(Step(Environment()), State(), ms, fuel, rest);
        ProcessAndSort();
        done, drained := false, false;
      } else {
        virtualTime := startTime + ms;
        rest, done, drained := 0, true, true;
      }
    }

    /**
     * `_processUntilTime(ms)`, which `goToTime` calls in every frame of the
     * page, with at most `fuel` blocks run; `drained` is false when the fuel
     * ran out first.
     */
    method ProcessUntilTime(ms: real, fuel: nat) returns (drained: bool)
      modifies this
      ensures (State(), drained) == UntilTime(Environment(), old(State()), ms, fuel)
    {
      ghost var goal := UntilTime(Environment(), State(), ms, fuel);
      SortPendingBlocks();
      var f, done := fuel, false;
      drained := false;
      while !done
        invariant !done ==> Drain(Step(Environment()), State(), ms, f) == goal
        invariant done ==> (State(), drained) == goal
        decreases if done then 0 else f + 1
      {
        f, done, drained := Turn(ms, f, goal);
      }
    }
  }
}

=== FILE: wrappers.dfy ===
/** Failure-compatible wrappers shared by the other modules. */
module Wrappers {

  /** A value that may be absent (JavaScript `undefined`). */
  datatype Option<+T> = None | Some(value: T)

  /** The outcome of an operation that may throw: a value, or the thrown message. */
  datatype Result<+T> = Ok(value: T) | Error(message: string)
}
